=== FILE: README.md ===
# Gesturements sensor pipeline in Dafny

This project models the core of the Gesturements Android app. The app turns accelerometer and gyroscope readings into sound. The model follows each reading through four stages:

- **Frames.** Each sensor's `Sensor3DViewModel` appends timestamped 3-axis readings to a fixed-width `SensorFrame`.
- **Rendezvous.** When a frame fills, a copy is handed to one side of a `FrameSync`. When both sides have a frame, the two frames are either resampled onto a common, evenly spaced time grid (through a cubic spline) or zero-filled when they do not overlap.
- **Preprocessing and features.** `SensorFramePreprocessor` filters and smooths a frame. `FrameFeatureExtractor` computes the per-sample magnitude and its statistics.
- **Classifier.** `GesturementsSimpleClassifier` integrates the gyroscope rotation into a volume in [0, 1]. It turns the accelerometer mean into a frequency quantized to multiples of 10. It then asks the synthesizer, which ramps its oscillator there in ten equal steps.

Modules:

- `Numerics` (numerics.dfy): Kotlin/JVM number semantics.
  - `roundToInt`: half up, saturating.
  - `Int` division: truncating.
  - `toLong`: truncating, saturating.
  - `Option`, with `None` standing for `NaN`.
  - Sums and means over `real`.
- `SensorFrames` (sensor_frames.dfy):
  - `SensorFrameContent` (four shared arrays) and `SensorFrame` (`updateReadings`, `clear`, `from`, `getAverages`, `syncToTime`): imperative classes proved against the value-level functions `Append`, `Cleared` and `Resample`;
  - `syncFrames`: the function `SyncFrames`, built from `Resample`.
- `FrameSynchronization` (frame_sync.dfy):
  - `FrameSync` and its connectors, with the slot counter invariant;
  - the `trySync` content rule `SyncPair`;
  - `Sensor3DViewModel` (`init` check and `appendReadings`).
- `Preprocessing` (preprocessing.dfy): `SensorFramePreprocessor`. The JDSP routines are function parameters.
- `FeatureExtraction` (features.dfy):
  - `eucNorm` and `getMagnitudeArray`;
  - `DoubleArrayFeatureWrapper` over a model of `DescriptiveStatistics`;
  - `FrameFeatureExtractor.summarize`.
- `Classification` (classification.dfy): the classifier's volume, frequency and silence rules, and the synthesizer's ramp loop.

Every `Double` (and `Float`) is a `real`. The cubic spline is a parameter `interp`; its only assumed property is exactness at its nodes. Callbacks and sinks become traces:

- `onSync` is the `synced` list of pairs;
- `onWrite`, which may be `null`, is `written`: what the sink would receive if one were set;
- the `forEach` callback is the returned call list;
- the synthesizer's requests and oscillator settings are `requests` and `settings`.

Two behaviours of the code are modelled as written, though a reader might expect otherwise:

- `getAverages` averages all `frameWidth` backing entries, not just the logical size. `AverageOverWidth` characterises that computation for any buffer whose entries past the size are zero. The program itself only calls `getAverages` on a frame that has just filled (DataExtraction.kt:283-285) or on a synced frame (MainActivity.kt:91-92). In both cases the size equals the width, so no call site reaches a padded frame.
- The frequency quantization `(freq / 10) * 10` truncates toward zero, which for negative frequencies is not the floor.

Two further behaviours are proved rather than assumed:

- `getFrameFrequency` divides the width by the time span. On an evenly spaced frame it therefore reports `w / (w - 1)` times the true rate (`UniformRateOvercounts`).
- `trySync` detects only one of the two disjoint cases. A right frame that ends before the left frame begins is resampled onto a backwards grid, and every right-frame value becomes its last value (`RightBeforeLeftFlattensRight`).

## Model

| member | source | states |
|---|---|---|
| Numerics.RoundToInt | app/src/main/java/com/landenlloyd/gesturements/Classification.kt:68 | Within `Int` range the result is the nearest integer with ties rounded up (`v - 0.5 < n <= v + 0.5`). Outside the range it saturates at `Int.MIN_VALUE`/`Int.MAX_VALUE`. |
| Numerics.TruncDiv | app/src/main/java/com/landenlloyd/gesturements/Classification.kt:71 | `Int` division by a positive divisor: `\|q\|·b <= \|a\| < (\|q\|+1)·b`, and `q` has the sign of `a` (truncation toward zero). |
| Numerics.TruncToLong | app/src/main/java/com/landenlloyd/gesturements/Preprocessing.kt:89 | `Double.toLong()`: within `Long` range, `\|n\| <= \|r\| < \|n\| + 1` with the sign of `r`. The result is always within `Long` bounds. |
| Numerics.Mean | app/src/main/java/com/landenlloyd/gesturements/DataExtraction.kt:397-399 | `average()`: undefined (`NaN`) exactly for no values; otherwise `mean · n` equals the sum. |
| Numerics.SumZeroTail | app/src/main/java/com/landenlloyd/gesturements/DataExtraction.kt:377-380 | Zero padding after index `k` does not change a sum. |
| SensorFrames.Append | app/src/main/java/com/landenlloyd/gesturements/DataExtraction.kt:352-364 | A full buffer is returned unchanged with `true`. Otherwise the readings become the old readings plus the new one, later backing entries are untouched, and the flag is true iff the size reached the width. Size stays within `[0, width]`. |
| SensorFrames.OverlapCount | app/src/main/java/com/landenlloyd/gesturements/DataExtraction.kt:375 | For an overlap in [0, 1], `k = round(w · overlap)` is within `[0, w]` and within one half of `w · overlap`. |
| SensorFrames.CarryOver | app/src/main/java/com/landenlloyd/gesturements/DataExtraction.kt:377-380 | `takeLast(k).copyOf(n)`: the last `k` entries in order, then zeros, length unchanged. |
| SensorFrames.Cleared | app/src/main/java/com/landenlloyd/gesturements/DataExtraction.kt:375-390 | After `clear`: size `k`, readings `0..k-1` are the old backing entries `w-k..w-1` in order, indices `k..w-1` are zero, and the width is unchanged. |
| SensorFrames.ClearKeepsMostRecent | app/src/main/java/com/landenlloyd/gesturements/DataExtraction.kt:375-390 | On a full frame, `clear` keeps exactly the last `k` readings: `Readings(Cleared) == Readings[w-k..]`. |
| SensorFrames.AverageOverWidth | app/src/main/java/com/landenlloyd/gesturements/DataExtraction.kt:396-400 | When the entries past the size are zero, the average is the sum of the held readings divided by the full width. |
| SensorFrames.Resample | app/src/main/java/com/landenlloyd/gesturements/DataExtraction.kt:568-597 | Output length is `\|t1\|`. A target before the first source time gets the first value, one after the last source time gets the last value, and anything in range gets the interpolant. |
| SensorFrames.SyncFrames | app/src/main/java/com/landenlloyd/gesturements/DataExtraction.kt:553-600 | All three resampled axes have the length of the target times. |
| SensorFrames.ResampleAtNodes | app/src/test/java/com/landenlloyd/gesturements/SyncFrameUnitTest.kt:14-25 | Resampling one axis onto its own increasing times reproduces it, given a spline exact at its nodes. |
| SensorFrames.SyncFramesIdentity | app/src/test/java/com/landenlloyd/gesturements/SyncFrameUnitTest.kt:16-25 | `syncFrames(t, t, x, y, z) == (x, y, z)` for increasing `t` and a node-exact spline. |
| SensorFrames.SyncFramesClampsOutsideRange | app/src/test/java/com/landenlloyd/gesturements/SyncFrameUnitTest.kt:40-45 | The extrapolation case of the unit test holds for any interpolator: targets `[-0.5, 4.5, 10]` over times `[1, 2, 3]` give the first/last values. |
| SensorFrames.SensorFrameContent.Zeros | app/src/main/java/com/landenlloyd/gesturements/DataExtraction.kt:415-420 | `SensorFrameContent(w)`: four fresh, distinct, zero-filled arrays of length `w`. |
| SensorFrames.SensorFrameContent.constructor | app/src/main/java/com/landenlloyd/gesturements/DataExtraction.kt:415-420 | Wraps the given arrays themselves, without copying. |
| SensorFrames.SensorFrame.constructor | app/src/main/java/com/landenlloyd/gesturements/DataExtraction.kt:327-341 | A new frame holds zero arrays of its width and size 0. |
| SensorFrames.SensorFrame.From | app/src/main/java/com/landenlloyd/gesturements/DataExtraction.kt:332-337 | `from`: a fresh frame with the same width and size that shares the same content object. |
| SensorFrames.SensorFrame.UpdateReadings | app/src/main/java/com/landenlloyd/gesturements/DataExtraction.kt:352-364 | The new state and the returned flag are exactly `Append(old state, width, reading)`. Only the size and the four arrays are written, and the frame invariant is kept. |
| SensorFrames.SensorFrame.Clear | app/src/main/java/com/landenlloyd/gesturements/DataExtraction.kt:370-391 | An overlap outside [0, 1] fails with `OverlapValueException` and changes nothing. Otherwise a fresh content is installed whose state is `Cleared(old state, w, round(w · overlap))`. |
| SensorFrames.SensorFrame.GetAverages | app/src/main/java/com/landenlloyd/gesturements/DataExtraction.kt:396-401 | Each axis average times the width equals the sum over all backing entries. Each of the three is defined iff the width is positive. |
| SensorFrames.SensorFrame.SyncToTime | app/src/main/java/com/landenlloyd/gesturements/DataExtraction.kt:406-409 | Installs a fresh content whose time array is the given array itself. Each axis is the old axis resampled at those times, and the width is the frame's own. |
| SensorFrames.CopySurvivesClear | app/src/main/java/com/landenlloyd/gesturements/DataExtraction.kt:289-293 | A copy made with `from` before `clear` keeps exactly the pre-clear state, while the original is cleared. |
| FrameSynchronization.Grid | app/src/main/java/com/landenlloyd/gesturements/DataExtraction.kt:531-534 | `n` points, first `minT`, last `maxT`, consecutive differences all `(maxT - minT)/(n - 1)`. |
| FrameSynchronization.GridIncreasing | app/src/main/java/com/landenlloyd/gesturements/DataExtraction.kt:531-534 | With `minT < maxT` the grid is strictly increasing. |
| FrameSynchronization.GridDecreasing | app/src/main/java/com/landenlloyd/gesturements/DataExtraction.kt:531-534 | With `minT > maxT` the grid is strictly decreasing. |
| FrameSynchronization.SyncPair | app/src/main/java/com/landenlloyd/gesturements/DataExtraction.kt:514-538 | When the left frame ends before the right begins, both become all-zero contents of their own widths. Otherwise both get the same time array, `Grid` of the left width running from the later first time to the earlier last time, with the frames' widths and equal-length axes. |
| FrameSynchronization.OverlapUsesSplineOnly | app/src/main/java/com/landenlloyd/gesturements/DataExtraction.kt:524-538 | For frames that overlap in time, the grid is increasing and lies inside both ranges, so every resampled value is its own frame's interpolant (nothing clamped). |
| FrameSynchronization.RightBeforeLeftFlattensRight | app/src/main/java/com/landenlloyd/gesturements/DataExtraction.kt:514-529 | A right frame entirely before the left one is not treated as disjoint: the grid runs backwards, and every right-frame value becomes its last value. |
| FrameSynchronization.FrameSyncConnector.constructor | app/src/main/java/com/landenlloyd/gesturements/DataExtraction.kt:469-472 | A connector starts accepting readings with an empty slot. |
| FrameSynchronization.FrameSync.constructor | app/src/main/java/com/landenlloyd/gesturements/DataExtraction.kt:462-489 | Both slots empty, counter 0, no sync yet, and the invariant holds. |
| FrameSynchronization.FrameSync.TrySync | app/src/main/java/com/landenlloyd/gesturements/DataExtraction.kt:491-542 | With a slot empty, nothing changes. With both filled, both slots are emptied, the counter is reset, both sides accept readings, one `onSync(left, right)` is recorded, and both frames get fresh contents equal to `SyncPair` of their old contents. The counter always equals the number of occupied slots. |
| FrameSynchronization.FrameSync.Release | app/src/main/java/com/landenlloyd/gesturements/DataExtraction.kt:506-541 | Once both frames are out of their slots: both sides accept readings again, exactly one `onSync(left, right)` is recorded, and the frames' new contents are `SyncPair` of their old ones. |
| FrameSynchronization.FrameSync.Deposit | app/src/main/java/com/landenlloyd/gesturements/DataExtraction.kt:473-481 | Depositing on an accepting side fills its slot, raises the counter and stops that side, leaving the frame untouched. If the other slot was full, the `TrySync` outcome follows. |
| FrameSynchronization.SyncContents | app/src/main/java/com/landenlloyd/gesturements/DataExtraction.kt:514-538 | The two frames' new contents are exactly `SyncPair` of their old ones. |
| FrameSynchronization.NewGrid | app/src/main/java/com/landenlloyd/gesturements/DataExtraction.kt:532-534 | The fresh array holds `Grid(minT, maxT, w)`. |
| FrameSynchronization.Sensor3DViewModel.constructor | app/src/main/java/com/landenlloyd/gesturements/DataExtraction.kt:248-264 | A view model with a fresh empty frame of the width, the given overlap and connector, and a zero state. |
| FrameSynchronization.Sensor3DViewModel.Create | app/src/main/java/com/landenlloyd/gesturements/DataExtraction.kt:255-259 | Construction throws `OverlapValueException(overlap)` iff the overlap is outside [0, 1]. |
| FrameSynchronization.Sensor3DViewModel.AppendReadings | app/src/main/java/com/landenlloyd/gesturements/DataExtraction.kt:276-295 | While its side does not accept readings, the sample is dropped and nothing changes. Otherwise it is recorded in `written` (what an `onWrite` sink, if set, receives) and the frame becomes `Append` of it; with a synchronizer present the shown state is never touched; below full, the content object and the synchronizer are untouched. A full frame is cleared with the overlap into fresh arrays. In addition: without a synchronizer the shown state is the three means of the full frame; with one whose other slot is empty, this side's slot holds a fresh copy sharing the full frame's content object and size and stops accepting; with the other side waiting, one pair is appended to the trace: the fresh copy on this side and the waiting frame on the other, their contents equal to `SyncPair` of the full frame and the waiting frame, both slots emptied. The synchronizer's footprint only grows by fresh objects. |
| FrameSynchronization.Sensor3DViewModel.Accept | app/src/main/java/com/landenlloyd/gesturements/DataExtraction.kt:281-294 | The accepting branch of `appendReadings`, with the same outcome as `AppendReadings` gives for an accepted sample in each of the three synchronizer states. |
| FrameSynchronization.Sensor3DViewModel.AcceptAlone | app/src/main/java/com/landenlloyd/gesturements/DataExtraction.kt:281-294 | Without a synchronizer: the sample is written and appended; a full frame shows its three means and is cleared with the overlap into fresh arrays; below full the content object is unchanged. |
| FrameSynchronization.Sensor3DViewModel.AcceptHolding | app/src/main/java/com/landenlloyd/gesturements/DataExtraction.kt:281-294 | With the other slot empty: the sample is written and appended; a full frame's copy, sharing its content object and size, waits in this side's slot, which stops accepting, and the frame is cleared into fresh arrays; the trace is unchanged. |
| FrameSynchronization.Sensor3DViewModel.AcceptPairing | app/src/main/java/com/landenlloyd/gesturements/DataExtraction.kt:281-294 | With the other side's frame waiting: the sample is written and appended; when the frame fills, one pair is appended to the trace, holding a fresh copy on this side and the waiting frame on the other, with contents equal to `SyncPair` of the full frame and the waiting frame; both slots are emptied and the frame is cleared into fresh arrays. |
| FrameSynchronization.Sensor3DViewModel.RotateAlone | app/src/main/java/com/landenlloyd/gesturements/DataExtraction.kt:284-293 | On a full frame without a synchronizer: the shown state becomes the three means of the frame, then the frame is `Cleared` with the overlap into fresh arrays. |
| FrameSynchronization.Sensor3DViewModel.RotateHolding | app/src/main/java/com/landenlloyd/gesturements/DataExtraction.kt:287-293 | On a full frame with the other slot empty: this side's slot holds a fresh copy sharing the frame's content object and size and stops accepting; the frame is then cleared into fresh arrays, leaving the copy's content as it was. |
| FrameSynchronization.Sensor3DViewModel.RotatePairing | app/src/main/java/com/landenlloyd/gesturements/DataExtraction.kt:287-293 | On a full frame with the other side waiting: the trace gains one pair, a fresh copy on this side and the waiting frame on the other, whose contents are `SyncPair` of the full frame and the waiting frame; both slots are emptied; the frame is then cleared into fresh arrays. |
| FrameSynchronization.Sensor3DViewModel.HandOff | app/src/main/java/com/landenlloyd/gesturements/DataExtraction.kt:287-290 | The frame itself is unchanged. With the other slot empty, this side's slot holds a fresh copy sharing the frame's content object and size. With the other side waiting, the trace gains the pair of the copy and the waiting frame, with contents equal to `SyncPair` of both, and both slots are emptied. |
| Preprocessing.CenteredTrim | app/src/main/java/com/landenlloyd/gesturements/Preprocessing.kt:172-177 | For `n <= w`, `take((w+n)/2).takeLast(n)` is `t[(w-n)/2 .. (w-n)/2+n]`. The tail loses one more sample than the head iff `w - n` is odd. |
| Preprocessing.SensorFramePreprocessor.constructor | app/src/main/java/com/landenlloyd/gesturements/Preprocessing.kt:12-16 | Wraps the given frame. |
| Preprocessing.SensorFramePreprocessor.GetFrameFrequency | app/src/main/java/com/landenlloyd/gesturements/Preprocessing.kt:20-31 | `hz · (t.last - t.first) == frameWidth · 1e9`. |
| Preprocessing.SensorFramePreprocessor.UniformRateOvercounts | app/src/main/java/com/landenlloyd/gesturements/Preprocessing.kt:20-30 | On `w` evenly spaced timestamps `d` ns apart, the reported rate is `w/(w-1)` times the true `1e9/d`, hence strictly above it. |
| Preprocessing.SensorFramePreprocessor.ForEach | app/src/main/java/com/landenlloyd/gesturements/Preprocessing.kt:86-95 | One callback per index in increasing order, with `(t[i].toLong(), x[i], y[i], z[i])`. It completes iff every axis is at least as long as `t`; otherwise it stops at the first missing index. |
| Preprocessing.SensorFramePreprocessor.FourierTransform | app/src/main/java/com/landenlloyd/gesturements/Preprocessing.kt:101-107 | Each axis' spectrum at the rounded frame rate. Nothing is modified. |
| Preprocessing.SensorFramePreprocessor.Replace | app/src/main/java/com/landenlloyd/gesturements/Preprocessing.kt:120-121 | A fresh content with the same time array and width and the given axes. |
| Preprocessing.SensorFramePreprocessor.LowPassFilter | app/src/main/java/com/landenlloyd/gesturements/Preprocessing.kt:115-122 | Time array and width unchanged. Each axis is the low-pass output of its old values, with the same rate, order and cutoff for all three. |
| Preprocessing.SensorFramePreprocessor.HighPassFilter | app/src/main/java/com/landenlloyd/gesturements/Preprocessing.kt:130-137 | As for the low pass, with the high-pass filter. |
| Preprocessing.SensorFramePreprocessor.BandPassFilter | app/src/main/java/com/landenlloyd/gesturements/Preprocessing.kt:146-153 | As for the low pass, with the band-pass filter and both cutoffs. |
| Preprocessing.SensorFramePreprocessor.SmoothByMovingAverage | app/src/main/java/com/landenlloyd/gesturements/Preprocessing.kt:163-178 | Each axis is smoothed with the same window and mode. The new width is the smoothed `x` length `n`, and `t` becomes `takeLast(n)` of `take((w+n)/2)`. |
| Preprocessing.SmoothKeepsShape | app/src/main/java/com/landenlloyd/gesturements/Preprocessing.kt:172-177 | When the smoothed signal is no longer than a full-width frame, the width, `t` and `x` all have length `n`, and `t` is the centred slice starting at `(w-n)/2`. |
| FeatureExtraction.EucNormSquares | app/src/main/java/com/landenlloyd/gesturements/FeatureExtraction.kt:69-71 | With an exact square root, `eucNorm` is non-negative and its square is the sum of squares. |
| FeatureExtraction.NormOfThree | app/src/main/java/com/landenlloyd/gesturements/FeatureExtraction.kt:69-71 | `eucNorm(a, b, c) == sqrt(a² + b² + c²)`. |
| FeatureExtraction.MagnitudeArray | app/src/main/java/com/landenlloyd/gesturements/FeatureExtraction.kt:77-79 | Length `\|x\|`; entry `i` is `sqrt(x[i]² + y[i]² + z[i]²)`. |
| FeatureExtraction.MagnitudeSquares | app/src/main/java/com/landenlloyd/gesturements/FeatureExtraction.kt:77-79 | Each magnitude is non-negative and squares to `x[i]² + y[i]² + z[i]²`. |
| FeatureExtraction.Minimum | app/src/main/java/com/landenlloyd/gesturements/FeatureExtraction.kt:57 | Defined iff non-empty; it is one of the values and at most every value. |
| FeatureExtraction.Maximum | app/src/main/java/com/landenlloyd/gesturements/FeatureExtraction.kt:58 | Defined iff non-empty; it is one of the values and at least every value. |
| FeatureExtraction.SumNonNegative | app/src/main/java/com/landenlloyd/gesturements/FeatureExtraction.kt:70 | A sum of non-negative terms is non-negative. |
| FeatureExtraction.SumBounds | app/src/main/java/com/landenlloyd/gesturements/FeatureExtraction.kt:63 | `n` terms within `[lo, hi]` sum to within `[n·lo, n·hi]`. |
| FeatureExtraction.MeanBetween | app/src/main/java/com/landenlloyd/gesturements/FeatureExtraction.kt:53 | The mean of values within `[lo, hi]` is within `[lo, hi]`. |
| FeatureExtraction.MeanWithinRange | app/src/main/java/com/landenlloyd/gesturements/FeatureExtraction.kt:53-58 | For non-empty values, `min <= mean <= max`. |
| FeatureExtraction.DescriptiveStatistics.constructor | app/src/main/java/com/landenlloyd/gesturements/FeatureExtraction.kt:45 | A new statistics object holds no values. |
| FeatureExtraction.DescriptiveStatistics.AddValue | app/src/main/java/com/landenlloyd/gesturements/FeatureExtraction.kt:49 | `addValue` appends the value to the stored values. |
| FeatureExtraction.DoubleArrayFeatureWrapper.constructor | app/src/main/java/com/landenlloyd/gesturements/FeatureExtraction.kt:44-51 | After the `init` loop, the statistics hold exactly the array's values in array order. |
| FeatureExtraction.DoubleArrayFeatureWrapper.Total | app/src/main/java/com/landenlloyd/gesturements/FeatureExtraction.kt:63 | `sum` is 0 for no values and non-negative when no value is negative. |
| FeatureExtraction.DoubleArrayFeatureWrapper.Mean | app/src/main/java/com/landenlloyd/gesturements/FeatureExtraction.kt:53 | `mean` is defined iff there are values, and `mean · n == sum`. |
| FeatureExtraction.DoubleArrayFeatureWrapper.Min | app/src/main/java/com/landenlloyd/gesturements/FeatureExtraction.kt:57 | `min` is defined iff there are values; it is a value and a lower bound of all of them. |
| FeatureExtraction.DoubleArrayFeatureWrapper.Max | app/src/main/java/com/landenlloyd/gesturements/FeatureExtraction.kt:58 | `max` is defined iff there are values; it is a value and an upper bound of all of them. |
| FeatureExtraction.DoubleArrayFeatureWrapper.Range | app/src/main/java/com/landenlloyd/gesturements/FeatureExtraction.kt:59 | `range` is defined iff there are values. It is non-negative, bounds every difference of two values, and is attained by two of them. |
| FeatureExtraction.DoubleArrayFeatureWrapper.Kurtosis | app/src/main/java/com/landenlloyd/gesturements/FeatureExtraction.kt:61-62 | `kurtosis` is the skewness, as written. |
| FeatureExtraction.WrapperMeanWithinRange | app/src/main/java/com/landenlloyd/gesturements/FeatureExtraction.kt:53-58 | A non-empty wrapper's mean lies between its `min` and its `max`. |
| FeatureExtraction.SplitJoinLines | app/src/main/java/com/landenlloyd/gesturements/FeatureExtraction.kt:28-35 | Lines without newlines are read back exactly from the text that `appendLine` builds from them. |
| FeatureExtraction.FrameFeatureExtractor.constructor | app/src/main/java/com/landenlloyd/gesturements/FeatureExtraction.kt:11-23 | The magnitude wrapper holds `getMagnitudeArray(x, y, z)` of the frame; the `x`, `y`, `z`, `t` wrappers hold the frame's arrays. |
| FeatureExtraction.FrameFeatureExtractor.Summarize | app/src/main/java/com/landenlloyd/gesturements/FeatureExtraction.kt:27-36 | The text splits into exactly six lines: the header, then the magnitude's Mean, Median, Standard Deviation, Skewness and Kurtosis (the latter showing the skewness), each after its label. |
| Classification.DeltaVolume | app/src/main/java/com/landenlloyd/gesturements/Classification.kt:54 | `dv · 1e9 · π == gyroSum · gyroDeltaTime · 0.02`; `dv` has the sign of the rotation. |
| Classification.Clamp | app/src/main/java/com/landenlloyd/gesturements/Classification.kt:58-63 | The result is in [0, 1], equal to the input inside it and to the nearer bound outside. |
| Classification.NextVolume | app/src/main/java/com/landenlloyd/gesturements/Classification.kt:54-63 | The new volume is in [0, 1] for every prior volume and input. The change is applied only when `\|dv\| > 0.005`; otherwise only the cap applies. |
| Classification.NoiseGateHolds | app/src/main/java/com/landenlloyd/gesturements/Classification.kt:55-56 | A change within the gate leaves an in-range volume exactly as it was. |
| Classification.VolumeMovesAgainstDelta | app/src/main/java/com/landenlloyd/gesturements/Classification.kt:50-56 | Beyond the gate, a positive change never raises the volume and a negative one never lowers it. A change that stays in range is applied whole. |
| Classification.Quantize | app/src/main/java/com/landenlloyd/gesturements/Classification.kt:71 | `(n / 10) * 10` is a multiple of 10 with `\|q\| <= \|n\|`, `\|n - q\| < 10`, and the sign of `n`. |
| Classification.QuantizeIdempotent | app/src/main/java/com/landenlloyd/gesturements/Classification.kt:70-71 | Quantizing twice is quantizing once. |
| Classification.Frequency | app/src/main/java/com/landenlloyd/gesturements/Classification.kt:67-71 | The frequency is a multiple of 10, no larger in magnitude than `round(accelMean · 750)` and within 10 of it. |
| Classification.Playback | app/src/main/java/com/landenlloyd/gesturements/Classification.kt:76-80 | `(0, 0)` when the frequency is at most 90, whatever the volume; otherwise `(freq, volume)`. |
| Classification.AudibleFrequencies | app/src/main/java/com/landenlloyd/gesturements/Classification.kt:67-80 | A request is either silent or at least 100 Hz, and its amplitude is in [0, 1]. |
| Classification.RampBetween | app/src/main/java/com/landenlloyd/gesturements/Classification.kt:128-136 | Every intermediate ramp setting lies between start and target, and the tenth equals the target. |
| Classification.GesturementsSynthSynthesizer.Initialize | app/src/main/java/com/landenlloyd/gesturements/Classification.kt:109-123 | The oscillator starts at frequency 0 and amplitude 0. |
| Classification.GesturementsSynthSynthesizer.AdjustPlayback | app/src/main/java/com/landenlloyd/gesturements/Classification.kt:125-137 | Exactly 10 settings are made, setting `k` being `start + k·(delta/10)`. The oscillator ends exactly at the requested pair, and the request is recorded once. |
| Classification.GesturementsSimpleClassifier.constructor | app/src/main/java/com/landenlloyd/gesturements/Classification.kt:34-38 | The volume starts at 0.5 and the synthesizer is initialized. |
| Classification.GesturementsSimpleClassifier.Classify | app/src/main/java/com/landenlloyd/gesturements/Classification.kt:44-81 | The new volume is `NextVolume(old volume, DeltaVolume(...))`, always in [0, 1]. Exactly one playback request is made, `Playback(Frequency(accelMean), volume)`, and the oscillator ends there. |

## Left out

- `SensorListener` (sensor registration, timing logs, Firebase writes), the Compose UI, navigation and activities: I/O and platform code.
- The `synchronized` block and `AtomicBoolean` of `FrameSync`: deposits and `trySync` are sequential atomic steps; concurrent interleavings are not modelled.
- JSyn (synthesizer creation, `LineOut`, `startPlayback`/`stopPlayback`) and the `Thread.sleep(10)` of the ramp: a foreign audio backend and timing. The oscillator is two real fields.
- Firebase upload of spectra (`freqToFirebase`, `freq3DToFirebase`), `toStringRecursive` and the timing log of `getFrameFrequency`: I/O and debug output.
- JDSP's Butterworth filters, `Smooth` and `DiscreteFourier`, and Apache Commons' spline coefficients, percentile, variance, standard deviation and skewness formulas: library code. They are function parameters. The spline is assumed only to be exact at its nodes, and the spline library's own argument checks (at least three increasing nodes) are not modelled.
- SensorFrames.SyncFramesIdentity: the unit test's linear-interpolation case (`t4 = [1.5, 2.0, 2.5]`) depends on the spline's coefficients, which are not modelled.
- `GesturementsFeatures` (`addFrames`, `gyroSum`, `gyroDeltaTime`, `accelMean`) is not part of this model. `Classify` takes its three scalars as `real` parameters.
- Classification.DeltaVolume: `gyroSum · gyroDeltaTime` is taken as a `Double` product. If `GesturementsFeatures` used integer types, the division by `1000000000` could truncate.
- IEEE `Double`/`Float` rounding, `NaN` and infinities: values are `real`, and `NaN` appears only as `None` for the mean, minimum and maximum of no values. `roundToInt` throwing on `NaN` is not modelled.
- `Float` precision: the overlap, the averages shown in `SensorState` and the incoming `Float` readings are `real`. The `Long`-to-`Double` conversion of timestamps is taken as exact.
- Preprocessing.SensorFramePreprocessor.GetFrameFrequency: the division by zero when the first and last timestamps coincide, and the index error on an empty frame, are preconditions rather than `Infinity`/`NaN`/exceptions.
- FrameSynchronization.Grid: the division by zero of `stepSize` when a frame's width is 1 is a precondition (`Syncable` requires width at least 2).
- FrameSynchronization.FrameSync.TrySync: it assumes, as the source's comment does, that both taken frames are full and have arrays of their content width (`SlotReady`). The case where both slots are filled but the counter is below 2 cannot arise from `Deposit`.
- FrameSynchronization.Sensor3DViewModel.AppendReadings: the two view models sharing one `FrameSync` are separate objects; no pipeline-level class ties both sides together. The connector's back-reference to `FrameSync` is replaced by the view model holding the `FrameSync` and its side.
- `Sensor3DViewModel.updateReadings` and the `StateFlow` plumbing: the `sensorState` field is assigned directly.
- Preprocessing.SensorFramePreprocessor.SmoothByMovingAverage: the smoothed `x` length is taken as `n` without modelling `Smooth`'s own length rule (`window - 1` samples lost).
- SensorFrames.SensorFrame.constructor: a negative width, for which `SensorFrameContent(frameWidth)` throws `NegativeArraySizeException`, is excluded by the `Width` type (`0 <= n <= 0x7fff_ffff`) rather than modelled as an error path.
- FeatureExtraction.MagnitudeArray: `requires |y| >= |x| && |z| >= |x|` replaces the `ArrayIndexOutOfBoundsException` that `getMagnitudeArray` throws when `y` or `z` is shorter than `x`. The only caller passes the three equally long axes of one frame.
- The default arguments of the filters (`order = 4`) and of `smoothByMovingAverage` (`windowSize = 7`, `mode = "rectangular"`): every modelled operation takes these values as explicit parameters.
- FeatureExtraction.DoubleArrayFeatureWrapper.Total: the bound `n · min <= sum <= n · max` is proved as `SumBounds` rather than stated on the member. The lazy, cached evaluation of the statistics is not modelled (the values never change after `init`).

=== FILE: classification.dfy ===
/**
 * The classifier controller (app/src/main/java/com/landenlloyd/gesturements/Classification.kt):
 * `GesturementsSimpleClassifier` turns the gyroscope's rotation into a volume change and the
 * accelerometer's mean magnitude into a frequency, and hands both to the synthesizer, which
 * ramps its oscillator to them in ten equal steps.
 *
 * The three feature scalars come in as parameters; the oscillator is two real fields, and the
 * synthesizer records every playback request and every oscillator setting as a trace.
 */
module Classification {
  import opened Numerics

  const ACCEL_FREQ_CORR: int := 750
  const GYRO_VOLUME_CORR: real := 0.02
  const MIN_GYRO_VOLUME_DELTA: real := 0.005
  const INITIAL_VOLUME: real := 0.5
  /** `Math.PI`, the double nearest to pi, written as a decimal. */
  const PI: real := 3.141592653589793
  const NANOS_PER_SECOND: real := 1_000_000_000.0
  /** Frequencies at or below this silence the synthesizer. */
  const SILENCE_FREQ: int := 90
  const NUM_STEPS: int := 10

  /**
   * The volume change for a gyroscope rotation: radians over the frame time in nanoseconds,
   * converted to half-turns and scaled. Its sign is the sign of the rotation, so a
   * counter-clockwise (positive) rotation will lower the volume.
   */
  function DeltaVolume(gyroSum: real, gyroDeltaTime: real): (dv: real)
    ensures dv * NANOS_PER_SECOND * PI == gyroSum * gyroDeltaTime * GYRO_VOLUME_CORR
    ensures dv > 0.0 <==> gyroSum * gyroDeltaTime > 0.0
    ensures dv == 0.0 <==> gyroSum * gyroDeltaTime == 0.0
  {
    gyroSum * gyroDeltaTime / NANOS_PER_SECOND / PI * GYRO_VOLUME_CORR
  }

  /** The cap of the volume to [0, 1]. */
  function Clamp(v: real): (c: real)
    ensures 0.0 <= c <= 1.0
    ensures 0.0 <= v <= 1.0 ==> c == v
    ensures v < 0.0 ==> c == 0.0
    ensures v > 1.0 ==> c == 1.0
  {
    if v < 0.0 then 0.0 else if v > 1.0 then 1.0 else v
  }

  /**
   * The volume after one classification: the change is applied only when it exceeds the
   * noise gate, and the result is capped to [0, 1] in every case.
   */
  function NextVolume(volume: real, dv: real): (v: real)
    ensures 0.0 <= v <= 1.0
    ensures Abs(dv) > MIN_GYRO_VOLUME_DELTA ==> v == Clamp(volume - dv)
    ensures Abs(dv) <= MIN_GYRO_VOLUME_DELTA ==> v == Clamp(volume)
  {
    Clamp(if Abs(dv) > MIN_GYRO_VOLUME_DELTA then volume - dv else volume)
  }

  /** A change within the noise gate leaves a volume in [0, 1] exactly where it was. */
  lemma NoiseGateHolds(volume: real, dv: real)
    requires 0.0 <= volume <= 1.0
    requires -MIN_GYRO_VOLUME_DELTA <= dv <= MIN_GYRO_VOLUME_DELTA
    ensures NextVolume(volume, dv) == volume
  {
  }

  /**
   * A change beyond the gate moves the volume against its sign: a positive change never
   * raises it, a negative one never lowers it, and a change that stays in [0, 1] is applied whole.
   */
  lemma VolumeMovesAgainstDelta(volume: real, dv: real)
    requires 0.0 <= volume <= 1.0
    requires Abs(dv) > MIN_GYRO_VOLUME_DELTA
    ensures dv > 0.0 ==> NextVolume(volume, dv) <= volume
    ensures dv < 0.0 ==> NextVolume(volume, dv) >= volume
    ensures 0.0 <= volume - dv <= 1.0 ==> NextVolume(volume, dv) == volume - dv
  {
  }

  /** `(freq / 10) * 10` with Kotlin's `Int` division: truncation toward zero to a multiple of 10. */
  function Quantize(n: Int32): (q: Int32)
    ensures q % 10 == 0
    ensures Abs(q as real) <= Abs(n as real)
    ensures Abs((n - q) as real) < 10.0
    ensures (n >= 0 ==> 0 <= q <= n) && (n <= 0 ==> n <= q <= 0)
  {
    TruncDiv(n, 10) * 10
  }

  /** Quantizing a multiple of 10 leaves it as it is: quantizing twice is quantizing once. */
  lemma QuantizeIdempotent(n: Int32)
    ensures Quantize(Quantize(n)) == Quantize(n)
  {
    var q := Quantize(n);
    assert q == (q / 10) * 10;
    if q < 0 {
      assert (-q) / 10 == -(q / 10);
    }
  }

  /** The frequency for an accelerometer mean: rounded half up, saturated to `Int`, then quantized. */
  function Frequency(accelMean: real): (f: Int32)
    ensures f % 10 == 0
    ensures Abs(f as real) <= Abs(RoundToInt(accelMean * ACCEL_FREQ_CORR as real) as real)
    ensures Abs((RoundToInt(accelMean * ACCEL_FREQ_CORR as real) - f) as real) < 10.0
  {
    Quantize(RoundToInt(accelMean * ACCEL_FREQ_CORR as real))
  }

  /** What `classify` asks the synthesizer for: silence at or below the threshold, else the pair. */
  function Playback(freq: int, volume: real): (p: (real, real))
    ensures freq <= SILENCE_FREQ ==> p == (0.0, 0.0)
    ensures freq > SILENCE_FREQ ==> p == (freq as real, volume)
  {
    if freq <= SILENCE_FREQ then (0.0, 0.0) else (freq as real, volume)
  }

  /**
   * A classification never asks for a tone below 100 Hz: the frequency is either silence or a
   * multiple of 10 above the threshold, and the amplitude stays in [0, 1].
   */
  lemma AudibleFrequencies(accelMean: real, volume: real)
    requires 0.0 <= volume <= 1.0
    ensures var p := Playback(Frequency(accelMean), volume);
      && (p.0 == 0.0 || p.0 >= 100.0)
      && 0.0 <= p.1 <= 1.0
  {
    var f := Frequency(accelMean);
    if f > SILENCE_FREQ {
      assert f >= 100 by {
        assert f % 10 == 0;
        assert f == (f / 10) * 10;
      }
    }
  }

  /** The oscillator setting after `k` of the `NUM_STEPS` equal steps from `start` by `delta`. */
  function RampPoint(start: real, delta: real, k: int): real
  {
    start + k as real * (delta / NUM_STEPS as real)
  }

  /** Every intermediate setting of a ramp lies between its start and its target. */
  lemma RampBetween(start: real, target: real, k: int)
    requires 0 <= k <= NUM_STEPS
    ensures Min(start, target) <= RampPoint(start, target - start, k) <= Max(start, target)
    ensures k == NUM_STEPS ==> RampPoint(start, target - start, k) == target
  {
    var d := target - start;
    assert RampPoint(start, d, k) == start + (k as real / 10.0) * d;
    assert 0.0 <= k as real / 10.0 <= 1.0;
    if d >= 0.0 {
      assert 0.0 <= (k as real / 10.0) * d <= d;
    } else {
      assert d <= (k as real / 10.0) * d <= 0.0;
    }
  }

  /**
   * `GesturementsSynthSynthesizer` with its sine oscillator as two fields. `requests` records
   * each `adjustPlayback` call and `settings` each pair of values set on the oscillator.
   */
  class GesturementsSynthSynthesizer {
    var initialized: bool
    var frequency: real
    var amplitude: real
    var requests: seq<(real, real)>
    var settings: seq<(real, real)>

    constructor ()
      ensures !initialized && requests == [] && settings == []
    {
      initialized := false;
      frequency, amplitude := 0.0, 0.0;
      requests, settings := [], [];
    }

    /** `initialize`: the oscillator starts silent. */
    method Initialize()
      modifies this
      ensures initialized && frequency == 0.0 && amplitude == 0.0
      ensures requests == old(requests) && settings == old(settings)
    {
      initialized := true;
      frequency, amplitude := 0.0, 0.0;
    }

    /**
     * `adjustPlayback(frequency, amplitude)`: ten steps, each adding a tenth of the distance
     * from where the oscillator was; it ends exactly at the request.
     */
    method AdjustPlayback(f: real, a: real)
      requires initialized
      modifies this
      ensures initialized && frequency == f && amplitude == a
      ensures requests == old(requests) + [(f, a)]
      ensures |settings| == |old(settings)| + NUM_STEPS
      ensures settings[..|old(settings)|] == old(settings)
      ensures forall k :: |old(settings)| <= k < |settings| ==>
        var step := k - |old(settings)| + 1;
        settings[k] == (RampPoint(old(frequency), f - old(frequency), step), RampPoint(old(amplitude), a - old(amplitude), step))
    {
      requests := requests + [(f, a)];
      var deltaFreq := f - frequency;
      var deltaAmp := a - amplitude;
      ghost var f0, a0, s0 := frequency, amplitude, settings;
      for i := 0 to NUM_STEPS
        invariant frequency == RampPoint(f0, deltaFreq, i) && amplitude == RampPoint(a0, deltaAmp, i)
        invariant |settings| == |s0| + i && settings[..|s0|] == s0
        invariant forall k :: |s0| <= k < |settings| ==>
          settings[k] == (RampPoint(f0, deltaFreq, k - |s0| + 1), RampPoint(a0, deltaAmp, k - |s0| + 1))
        invariant initialized && requests == old(requests) + [(f, a)]
      {
        frequency := frequency + deltaFreq / NUM_STEPS as real;
        amplitude := amplitude + deltaAmp / NUM_STEPS as real;
        settings := settings + [(frequency, amplitude)];
      }
    }
  }

  /** `GesturementsSimpleClassifier`: the integrated volume and the synthesizer it drives. */
  class GesturementsSimpleClassifier {
    var volume: real
    const synthesizer: GesturementsSynthSynthesizer

    predicate Valid()
      reads this, synthesizer
    {
      0.0 <= volume <= 1.0 && synthesizer.initialized
    }

    /** The volume starts at one half, and the synthesizer is initialized. */
    constructor (synthesizer: GesturementsSynthSynthesizer)
      modifies synthesizer
      ensures Valid() && volume == INITIAL_VOLUME && this.synthesizer == synthesizer
      ensures synthesizer.frequency == 0.0 && synthesizer.amplitude == 0.0
      ensures synthesizer.requests == old(synthesizer.requests)
    {
      volume := INITIAL_VOLUME;
      this.synthesizer := synthesizer;
      new;
      synthesizer.Initialize();
    }

    /**
     * `classify`: updates the volume through the noise gate and the cap, computes the
     * quantized frequency, and makes exactly one playback request, silent at or below 90 Hz.
     */
    method Classify(gyroSum: real, gyroDeltaTime: real, accelMean: real)
      requires synthesizer.initialized
      modifies this, synthesizer
      ensures Valid()
      ensures volume == NextVolume(old(volume), DeltaVolume(gyroSum, gyroDeltaTime))
      ensures synthesizer.requests == old(synthesizer.requests) + [Playback(Frequency(accelMean), volume)]
      ensures (synthesizer.frequency, synthesizer.amplitude) == Playback(Frequency(accelMean), volume)
    {
      var deltaVolume := gyroSum * gyroDeltaTime / NANOS_PER_SECOND / PI * GYRO_VOLUME_CORR;
      if Abs(deltaVolume) > MIN_GYRO_VOLUME_DELTA {
        volume := volume - deltaVolume;
      }
      if volume < 0.0 {
        volume := 0.0;
      } else if volume > 1.0 {
        volume := 1.0;
      }
      var freq := RoundToInt(accelMean * ACCEL_FREQ_CORR as real);
      freq := TruncDiv(freq, 10) * 10;
      if freq <= SILENCE_FREQ {
        synthesizer.AdjustPlayback(0.0, 0.0);
      } else {
        synthesizer.AdjustPlayback(freq as real, volume);
      }
    }
  }
}

=== FILE: features.dfy ===
/**
 * Feature extraction (app/src/main/java/com/landenlloyd/gesturements/FeatureExtraction.kt):
 * the per-sample magnitude of a 3-axis frame, the statistics wrapper over a value array,
 * and the text summary of the magnitude statistics.
 *
 * Apache Commons' `DescriptiveStatistics` is modelled as the sequence of values it has been
 * given; sum, mean, minimum and maximum are defined here over `real`, while the percentile,
 * variance, standard deviation and skewness formulas are parameters.
 */
module FeatureExtraction {
  import opened Numerics
  import opened SensorFrames

  /** `FastMath.sqrt`. */
  type SquareRoot = real -> real

  /** The property of the square root the magnitude lemmas use: exact on non-negatives. */
  ghost predicate ExactRoot(sqrt: SquareRoot)
  {
    forall r :: r >= 0.0 ==> sqrt(r) >= 0.0 && sqrt(r) * sqrt(r) == r
  }

  /** The formulas of Apache Commons that the model does not restate. */
  datatype StatsLibrary = StatsLibrary(
    percentile: (seq<real>, real) -> real,
    variance: seq<real> -> real,
    standardDeviation: seq<real> -> real,
    skewness: seq<real> -> real)

  /** Kotlin `Double.toString`. */
  type Show = real -> string

  /** The squares of `xs`, in order: what `sumOf { pow(it, 2) }` adds up. */
  function Squares(xs: seq<real>): (sq: seq<real>)
    ensures |sq| == |xs|
    ensures forall i :: 0 <= i < |xs| ==> sq[i] == xs[i] * xs[i]
  {
    seq(|xs|, i requires 0 <= i < |xs| => xs[i] * xs[i])
  }

  /** A sum of non-negative terms is non-negative. */
  lemma {:induction false} SumNonNegative(s: seq<real>)
    requires forall i :: 0 <= i < |s| ==> s[i] >= 0.0
    ensures Sum(s) >= 0.0
  {
    if |s| > 0 {
      SumNonNegative(s[..|s| - 1]);
    }
  }

  /** `eucNorm(*xs)`: the square root of the sum of the squares. */
  function EucNorm(xs: seq<real>, sqrt: SquareRoot): real
  {
    sqrt(Sum(Squares(xs)))
  }

  /** With an exact square root the norm is non-negative and squares to the sum of squares. */
  lemma EucNormSquares(xs: seq<real>, sqrt: SquareRoot)
    requires ExactRoot(sqrt)
    ensures EucNorm(xs, sqrt) >= 0.0
    ensures EucNorm(xs, sqrt) * EucNorm(xs, sqrt) == Sum(Squares(xs))
  {
    SumNonNegative(Squares(xs));
  }

  /**
   * `getMagnitudeArray(x, y, z)`: one norm per index of `x`; `y` and `z` must be at least as
   * long, or the index into them fails.
   */
  function MagnitudeArray(x: seq<real>, y: seq<real>, z: seq<real>, sqrt: SquareRoot): (m: seq<real>)
    requires |y| >= |x| && |z| >= |x|
    ensures |m| == |x|
    ensures forall i :: 0 <= i < |x| ==> m[i] == sqrt(x[i] * x[i] + y[i] * y[i] + z[i] * z[i])
  {
    var m := seq(|x|, i requires 0 <= i < |x| => EucNorm([x[i], y[i], z[i]], sqrt));
    assert forall i :: 0 <= i < |x| ==> m[i] == sqrt(x[i] * x[i] + y[i] * y[i] + z[i] * z[i]) by {
      forall i | 0 <= i < |x| {
        NormOfThree(x[i], y[i], z[i], sqrt);
      }
    }
    m
  }

  /** The norm of three values is the root of the sum of their three squares. */
  lemma NormOfThree(a: real, b: real, c: real, sqrt: SquareRoot)
    ensures EucNorm([a, b, c], sqrt) == sqrt(a * a + b * b + c * c)
  {
    var sq := Squares([a, b, c]);
    assert |sq| == 3 && sq[0] == a * a && sq[1] == b * b && sq[2] == c * c;
    assert sq == [a * a, b * b, c * c];
    assert sq[..2] == [a * a, b * b];
    assert [a * a, b * b][..1] == [a * a];
    assert [a * a][..0] == [];
    assert Sum([a * a]) == a * a;
    assert Sum([a * a, b * b]) == a * a + b * b;
  }

  /** Each magnitude is non-negative and squares to `x² + y² + z²` at its index. */
  lemma MagnitudeSquares(x: seq<real>, y: seq<real>, z: seq<real>, sqrt: SquareRoot, i: int)
    requires |y| >= |x| && |z| >= |x| && 0 <= i < |x|
    requires ExactRoot(sqrt)
    ensures var m := MagnitudeArray(x, y, z, sqrt);
      m[i] >= 0.0 && m[i] * m[i] == x[i] * x[i] + y[i] * y[i] + z[i] * z[i]
  {
    var s := x[i] * x[i] + y[i] * y[i] + z[i] * z[i];
    assert x[i] * x[i] >= 0.0 && y[i] * y[i] >= 0.0 && z[i] * z[i] >= 0.0;
    assert sqrt(s) >= 0.0 && sqrt(s) * sqrt(s) == s;
  }

  /** The smallest value, scanning from the first; `None` for no values (Apache gives `NaN`). */
  function Minimum(s: seq<real>): (m: Option<real>)
    ensures m.Some? <==> |s| > 0
    ensures m.Some? ==> m.value in s
    ensures m.Some? ==> forall i :: 0 <= i < |s| ==> m.value <= s[i]
  {
    if |s| == 0 then None
    else if |s| == 1 then Some(s[0])
    else
      var m := Minimum(s[..|s| - 1]).value;
      assert forall i :: 0 <= i < |s| - 1 ==> s[..|s| - 1][i] == s[i];
      Some(if s[|s| - 1] < m then s[|s| - 1] else m)
  }

  /** The largest value, scanning from the first; `None` for no values (Apache gives `NaN`). */
  function Maximum(s: seq<real>): (m: Option<real>)
    ensures m.Some? <==> |s| > 0
    ensures m.Some? ==> m.value in s
    ensures m.Some? ==> forall i :: 0 <= i < |s| ==> s[i] <= m.value
  {
    if |s| == 0 then None
    else if |s| == 1 then Some(s[0])
    else
      var m := Maximum(s[..|s| - 1]).value;
      assert forall i :: 0 <= i < |s| - 1 ==> s[..|s| - 1][i] == s[i];
      Some(if m < s[|s| - 1] then s[|s| - 1] else m)
  }

  /** A sum of `n` terms each within `[lo, hi]` lies within `[n·lo, n·hi]`. */
  lemma {:induction false} SumBounds(s: seq<real>, lo: real, hi: real)
    requires forall i :: 0 <= i < |s| ==> lo <= s[i] <= hi
    ensures |s| as real * lo <= Sum(s) <= |s| as real * hi
  {
    if |s| > 0 {
      SumBounds(s[..|s| - 1], lo, hi);
    }
  }

  /** The mean of values that all lie within `[lo, hi]` lies within it too. */
  lemma MeanBetween(s: seq<real>, lo: real, hi: real)
    requires |s| > 0
    requires forall i :: 0 <= i < |s| ==> lo <= s[i] <= hi
    ensures lo <= Mean(s).value <= hi
  {
    SumBounds(s, lo, hi);
    AverageBounds(Sum(s), |s| as real, lo, hi, Mean(s).value);
  }

  /** The mean of a non-empty sequence lies between its minimum and its maximum. */
  lemma MeanWithinRange(s: seq<real>)
    requires |s| > 0
    ensures Minimum(s).value <= Mean(s).value <= Maximum(s).value
  {
    MeanBetween(s, Minimum(s).value, Maximum(s).value);
  }

  /** An average `m` of a total over `n` lies within the bounds that `n` times them put on the total. */
  lemma AverageBounds(total: real, n: real, lo: real, hi: real, m: real)
    requires n > 0.0 && n * lo <= total <= n * hi && m * n == total
    ensures lo <= m <= hi
  {
    assert n * lo <= n * m;
    assert n * m <= n * hi;
  }

  /** Apache `DescriptiveStatistics`: the values added so far, in the order they were added. */
  class DescriptiveStatistics {
    var values: seq<real>

    constructor ()
      ensures values == []
    {
      values := [];
    }

    method AddValue(v: real)
      modifies this
      ensures values == old(values) + [v]
    {
      values := values + [v];
    }
  }

  /** `DoubleArrayFeatureWrapper(array)`: statistics over the values of one array. */
  class DoubleArrayFeatureWrapper {
    const stats: DescriptiveStatistics
    const lib: StatsLibrary

    /** The `init` loop: every value of the array goes into the statistics, in array order. */
    constructor (a: array<real>, lib: StatsLibrary)
      ensures fresh(stats) && stats.values == a[..] && this.lib == lib
    {
      this.lib := lib;
      stats := new DescriptiveStatistics();
      new;
      for i := 0 to a.Length
        invariant stats.values == a[..i]
      {
        stats.AddValue(a[i]);
      }
    }

    /**
     * `sum`: the total of the values, added in order: 0 when there are none, and never
     * negative when no value is (as for a magnitude array).
     */
    function Total(): (r: real)
      reads this, stats
      ensures |stats.values| == 0 ==> r == 0.0
      ensures (forall i :: 0 <= i < |stats.values| ==> stats.values[i] >= 0.0) ==> r >= 0.0
    {
      if forall i :: 0 <= i < |stats.values| ==> stats.values[i] >= 0.0 then
        SumNonNegative(stats.values); Sum(stats.values)
      else Sum(stats.values)
    }

    /** `mean`: the total divided by the count; `None` (`NaN`) when there are no values. */
    function Mean(): (m: Option<real>)
      reads this, stats
      ensures m.Some? <==> |stats.values| > 0
      ensures m.Some? ==> m.value * |stats.values| as real == Total()
    {
      Numerics.Mean(stats.values)
    }

    /** `min`. */
    function Min(): (m: Option<real>)
      reads this, stats
      ensures m.Some? <==> |stats.values| > 0
      ensures m.Some? ==> m.value in stats.values && forall v :: v in stats.values ==> m.value <= v
    {
      Minimum(stats.values)
    }

    /** `max`. */
    function Max(): (m: Option<real>)
      reads this, stats
      ensures m.Some? <==> |stats.values| > 0
      ensures m.Some? ==> m.value in stats.values && forall v :: v in stats.values ==> v <= m.value
    {
      Maximum(stats.values)
    }

    /**
     * `range = max - min`: non-negative, an upper bound on the difference of any two values,
     * and attained by two of them.
     */
    function Range(): (r: Option<real>)
      reads this, stats
      ensures r.Some? <==> |stats.values| > 0
      ensures r.Some? ==> r.value >= 0.0
      ensures r.Some? ==> forall u, v :: u in stats.values && v in stats.values ==> u - v <= r.value
      ensures r.Some? ==> exists u, v :: u in stats.values && v in stats.values && u - v == r.value
    {
      if |stats.values| == 0 then None
      else
        var hi, lo := Max().value, Min().value;
        assert hi in stats.values && lo in stats.values && hi - lo >= 0.0;
        Some(hi - lo)
    }

    function Median(): real
      reads this, stats
    {
      lib.percentile(stats.values, 50.0)
    }

    function Variance(): real
      reads this, stats
    {
      lib.variance(stats.values)
    }

    function StandardDeviation(): real
      reads this, stats
    {
      lib.standardDeviation(stats.values)
    }

    function Iqr(): real
      reads this, stats
    {
      lib.percentile(stats.values, 75.0) - lib.percentile(stats.values, 25.0)
    }

    function Skewness(): real
      reads this, stats
    {
      lib.skewness(stats.values)
    }

    /** `kurtosis` as written: it is computed with the skewness formula. */
    function Kurtosis(): (k: real)
      reads this, stats
      ensures k == Skewness()
    {
      lib.skewness(stats.values)
    }
  }

  /** The mean of the wrapped values lies between their minimum and their maximum. */
  lemma WrapperMeanWithinRange(w: DoubleArrayFeatureWrapper)
    requires |w.stats.values| > 0
    ensures w.Min().value <= w.Mean().value <= w.Max().value
  {
    MeanWithinRange(w.stats.values);
  }

  /** `appendLine` of each line in turn: every line followed by a newline. */
  function JoinLines(ls: seq<string>): string
  {
    if |ls| == 0 then "" else ls[0] + "\n" + JoinLines(ls[1..])
  }

  /** The index of the first newline in `s`, or `|s|` when there is none. */
  function LineEnd(s: string): (k: nat)
    ensures k <= |s|
    ensures forall i :: 0 <= i < k ==> s[i] != '\n'
    ensures k < |s| ==> s[k] == '\n'
  {
    if |s| == 0 || s[0] == '\n' then 0 else 1 + LineEnd(s[1..])
  }

  /** Reads newline-terminated lines back out of a text; a last unterminated piece is a line too. */
  function SplitLines(s: string): seq<string>
    decreases |s|
  {
    if |s| == 0 then []
    else
      var k := LineEnd(s);
      if k == |s| then [s] else [s[..k]] + SplitLines(s[k + 1..])
  }

  predicate SingleLine(l: string)
  {
    forall i :: 0 <= i < |l| ==> l[i] != '\n'
  }

  /** Lines without newlines are read back exactly from the text that joins them. */
  lemma {:induction false} SplitJoinLines(ls: seq<string>)
    requires forall j :: 0 <= j < |ls| ==> SingleLine(ls[j])
    ensures SplitLines(JoinLines(ls)) == ls
  {
    if |ls| > 0 {
      var s := JoinLines(ls);
      var rest := JoinLines(ls[1..]);
      assert s == ls[0] + "\n" + rest;
      assert LineEnd(s) == |ls[0]| by {
        assert forall i :: 0 <= i < |ls[0]| ==> s[i] == ls[0][i];
        assert s[|ls[0]|] == '\n';
        LineEndAt(s, |ls[0]|);
      }
      assert s[..|ls[0]|] == ls[0];
      assert s[|ls[0]| + 1..] == rest;
      SplitJoinLines(ls[1..]);
      assert ls == [ls[0]] + ls[1..];
    }
  }

  /** The first newline of a text is at `k` when the text has one there and none before it. */
  lemma {:induction false} LineEndAt(s: string, k: nat)
    requires k < |s| && s[k] == '\n'
    requires forall i :: 0 <= i < k ==> s[i] != '\n'
    ensures LineEnd(s) == k
  {
    if k > 0 {
      assert forall i :: 0 <= i < k - 1 ==> s[1..][i] == s[i + 1];
      LineEndAt(s[1..], k - 1);
    }
  }

  const HEADER: string := "Magnitude statistics summary:"
  const MEAN_LABEL: string := "Mean:                "
  const MEDIAN_LABEL: string := "Median:              "
  const SD_LABEL: string := "Standard Deviation:  "
  const SKEWNESS_LABEL: string := "Skewness:            "
  const KURTOSIS_LABEL: string := "Kurtosis:            "

  /** The lines `summarize` appends, in order, given the text of the five statistics. */
  function SummaryLines(mean: string, median: string, sd: string, skew: string, kurt: string): seq<string>
  {
    [HEADER, MEAN_LABEL + mean, MEDIAN_LABEL + median, SD_LABEL + sd, SKEWNESS_LABEL + skew, KURTOSIS_LABEL + kurt]
  }

  /** The header and the five labels of the summary contain no newline. */
  lemma LabelsAreLines()
    ensures SingleLine(HEADER) && SingleLine(MEAN_LABEL) && SingleLine(MEDIAN_LABEL)
    ensures SingleLine(SD_LABEL) && SingleLine(SKEWNESS_LABEL) && SingleLine(KURTOSIS_LABEL)
  {
  }

  /** A one-line label followed by a one-line value is one line. */
  lemma LabelledLine(tag: string, v: string)
    requires SingleLine(tag) && SingleLine(v)
    ensures SingleLine(tag + v)
  {
    assert forall i :: 0 <= i < |tag + v| ==> (tag + v)[i] == if i < |tag| then tag[i] else v[i - |tag|];
  }

  /** A `Double` shown in text; `NaN` for the undefined statistic of no values. */
  function ShowOption(o: Option<real>, show: Show): string
  {
    if o.Some? then show(o.value) else "NaN"
  }

  /** `FrameFeatureExtractor(frame)`: the magnitude array of the frame and wrappers over each array. */
  class FrameFeatureExtractor {
    const magnitudeArray: seq<real>
    const magnitude: DoubleArrayFeatureWrapper
    const x: DoubleArrayFeatureWrapper
    const y: DoubleArrayFeatureWrapper
    const z: DoubleArrayFeatureWrapper
    const t: DoubleArrayFeatureWrapper

    constructor (frame: SensorFrame, sqrt: SquareRoot, lib: StatsLibrary)
      requires frame.content.y.Length >= frame.content.x.Length
      requires frame.content.z.Length >= frame.content.x.Length
      ensures magnitudeArray == MagnitudeArray(frame.content.x[..], frame.content.y[..], frame.content.z[..], sqrt)
      ensures magnitude.stats.values == magnitudeArray
      ensures x.stats.values == frame.content.x[..] && y.stats.values == frame.content.y[..]
      ensures z.stats.values == frame.content.z[..] && t.stats.values == frame.content.t[..]
      ensures fresh(magnitude.stats)
    {
      var c := frame.content;
      var m := MagnitudeArray(c.x[..], c.y[..], c.z[..], sqrt);
      var a := new real[|m|](i requires 0 <= i < |m| => m[i]);
      magnitudeArray := m;
      magnitude := new DoubleArrayFeatureWrapper(a, lib);
      x := new DoubleArrayFeatureWrapper(c.x, lib);
      y := new DoubleArrayFeatureWrapper(c.y, lib);
      z := new DoubleArrayFeatureWrapper(c.z, lib);
      t := new DoubleArrayFeatureWrapper(c.t, lib);
    }

    /**
     * `summarize`: the text reads back as six lines, a header and then the magnitude's
     * Mean, Median, Standard Deviation, Skewness and Kurtosis, each after its label.
     */
    function Summarize(show: Show): (s: string)
      requires forall v :: SingleLine(show(v))
      reads this, magnitude, magnitude.stats
      ensures var ls := SplitLines(s);
        && |ls| == 6
        && ls[0] == HEADER
        && ls[1] == MEAN_LABEL + ShowOption(magnitude.Mean(), show)
        && ls[2] == MEDIAN_LABEL + show(magnitude.Median())
        && ls[3] == SD_LABEL + show(magnitude.StandardDeviation())
        && ls[4] == SKEWNESS_LABEL + show(magnitude.Skewness())
        && ls[5] == KURTOSIS_LABEL + show(magnitude.Skewness())
    {
      var mean := ShowOption(magnitude.Mean(), show);
      var median, sd := show(magnitude.Median()), show(magnitude.StandardDeviation());
      var skew, kurt := show(magnitude.Skewness()), show(magnitude.Kurtosis());
      var ls := SummaryLines(mean, median, sd, skew, kurt);
      LabelsAreLines();
      LabelledLine(MEAN_LABEL, mean);
      LabelledLine(MEDIAN_LABEL, median);
      LabelledLine(SD_LABEL, sd);
      LabelledLine(SKEWNESS_LABEL, skew);
      LabelledLine(KURTOSIS_LABEL, kurt);
      SplitJoinLines(ls);
      JoinLines(ls)
    }
  }
}

=== FILE: frame_sync.dfy ===
/**
 * The two-sided rendezvous of the sensor pipeline: `FrameSync`, its two single-slot
 * `FrameSyncConnector`s, and `Sensor3DViewModel.appendReadings`, which feeds one side
 * (app/src/main/java/com/landenlloyd/gesturements/DataExtraction.kt).
 *
 * Each side deposits a full frame into its slot and stops accepting readings; when both
 * slots are filled, `trySync` takes both frames, resamples them onto a common time grid
 * (or zero-fills them when the left frame ends before the right one begins), re-enables
 * both sides and calls `onSync`. The `onSync` callback is recorded as a trace of pairs.
 * The lock and atomic flag of the source are modelled as sequential atomic steps.
 */
module FrameSynchronization {
  import opened Numerics
  import opened SensorFrames

  datatype Side = Left | Right

  /** A raw sample as `appendReadings` receives it: a `Long` nanosecond timestamp and three axes. */
  datatype Sample = Sample(t: int, x: real, y: real, z: real)

  /** What `Sensor3DViewModel` shows the UI: the three averages of the last frame (`None` for `NaN`). */
  datatype SensorState = SensorState(x: Option<real>, y: Option<real>, z: Option<real>)

  /** `Sensor3DViewModel(...)` either yields a view model or throws `OverlapValueException`. */
  datatype Construction = Constructed(model: Sensor3DViewModel) | Thrown(error: OverlapValueException)

  function Last(s: seq<real>): real
    requires |s| > 0
  {
    s[|s| - 1]
  }

  /**
   * The evenly spaced grid of `trySync`: `newT[i] = minT + i * stepSize` with
   * `stepSize = (maxT - minT) / (n - 1)`.
   */
  function Grid(minT: real, maxT: real, n: int): (g: seq<real>)
    requires n >= 2
    ensures |g| == n
    ensures g[0] == minT && g[n - 1] == maxT
    ensures forall i :: 0 <= i < n - 1 ==> g[i + 1] - g[i] == (maxT - minT) / (n - 1) as real
  {
    var d := (n - 1) as real;
    var step := (maxT - minT) / d;
    var g := seq(n, i requires 0 <= i < n => minT + i as real * step);
    assert d > 0.0 && d * step == maxT - minT;
    assert g[n - 1] == minT + d * step;
    g
  }

  /** When `minT < maxT` the grid is strictly increasing, so it can serve as spline nodes. */
  lemma GridIncreasing(minT: real, maxT: real, n: int)
    requires n >= 2 && minT < maxT
    ensures StrictlyIncreasing(Grid(minT, maxT, n))
  {
    var g := Grid(minT, maxT, n);
    var step := (maxT - minT) / (n - 1) as real;
    forall i, j | 0 <= i < j < n
      ensures g[i] < g[j]
    {
      var d := (j - i) as real;
      assert g[j] - g[i] == d * step;
      assert step > 0.0 && d > 0.0;
      assert d * step > 0.0;
    }
  }

  /** When `minT > maxT` the grid runs backwards. */
  lemma GridDecreasing(minT: real, maxT: real, n: int)
    requires n >= 2 && minT > maxT
    ensures forall i, j :: 0 <= i < j < n ==> Grid(minT, maxT, n)[i] > Grid(minT, maxT, n)[j]
  {
    var g := Grid(minT, maxT, n);
    var step := (maxT - minT) / (n - 1) as real;
    forall i, j | 0 <= i < j < n
      ensures g[i] > g[j]
    {
      var d := (j - i) as real;
      assert g[j] - g[i] == d * step;
      assert step < 0.0 && d > 0.0;
      assert d * step < 0.0;
    }
  }

  /** A frame as `trySync` expects it: four arrays of its content width, at least two entries. */
  predicate Syncable(c: Content)
  {
    c.frameWidth >= 2 && |c.t| == c.frameWidth && |c.x| == c.frameWidth
    && |c.y| == c.frameWidth && |c.z| == c.frameWidth
  }

  function ZeroContent(w: nat): Content
  {
    Content(w, Zeros(w), Zeros(w), Zeros(w), Zeros(w))
  }

  /** `syncToTime(newT)` on a content value, `w` being the frame's own width. */
  function SyncedTo(c: Content, w: int, newT: seq<real>, interp: Interpolator): (r: Content)
    requires Syncable(c)
  {
    Content(w, newT, Resample(newT, c.t, c.x, interp), Resample(newT, c.t, c.y, interp),
            Resample(newT, c.t, c.z, interp))
  }

  /** True when the left frame ends before the right frame begins: the zero-fill path. */
  predicate Disjoint(l: Content, r: Content)
    requires Syncable(l) && Syncable(r)
  {
    Last(l.t) < r.t[0]
  }

  /**
   * What `trySync` does to the contents of the two frames it takes: `lw` and `rw` are
   * the widths the two `SensorFrame`s were created with.
   */
  function SyncPair(l: Content, lw: int, r: Content, rw: int, interp: Interpolator): (p: (Content, Content))
    requires Syncable(l) && Syncable(r)
    ensures Disjoint(l, r) ==> p.0.frameWidth == l.frameWidth && p.1.frameWidth == r.frameWidth
    ensures Disjoint(l, r) ==> Syncable(p.0) && Syncable(p.1)
    ensures Disjoint(l, r) ==> forall i :: 0 <= i < l.frameWidth ==> At(p.0, i) == Reading(0.0, 0.0, 0.0, 0.0)
    ensures Disjoint(l, r) ==> forall i :: 0 <= i < r.frameWidth ==> At(p.1, i) == Reading(0.0, 0.0, 0.0, 0.0)
    ensures !Disjoint(l, r) ==> p.0.frameWidth == lw && p.1.frameWidth == rw
    ensures !Disjoint(l, r) ==> p.0.t == p.1.t == Grid(Max(l.t[0], r.t[0]), Min(Last(l.t), Last(r.t)), l.frameWidth)
    ensures !Disjoint(l, r) ==> |p.0.t| == l.frameWidth
    ensures !Disjoint(l, r) ==> p.0.t[0] == Max(l.t[0], r.t[0]) && Last(p.0.t) == Min(Last(l.t), Last(r.t))
    ensures !Disjoint(l, r) ==> |p.0.x| == |p.0.y| == |p.0.z| == |p.1.x| == |p.1.y| == |p.1.z| == l.frameWidth
  {
    if Disjoint(l, r) then
      (ZeroContent(l.frameWidth), ZeroContent(r.frameWidth))
    else
      var newT := Grid(Max(l.t[0], r.t[0]), Min(Last(l.t), Last(r.t)), l.frameWidth);
      (SyncedTo(l, lw, newT, interp), SyncedTo(r, rw, newT, interp))
  }

  /**
   * When the two frames overlap in time, both are resampled onto one increasing grid
   * inside both time ranges, so on that grid no value is clamped: each comes from the
   * spline of its own frame.
   */
  lemma OverlapUsesSplineOnly(l: Content, lw: int, r: Content, rw: int, interp: Interpolator)
    requires Syncable(l) && Syncable(r) && StrictlyIncreasing(l.t) && StrictlyIncreasing(r.t)
    requires Max(l.t[0], r.t[0]) < Min(Last(l.t), Last(r.t))
    ensures !Disjoint(l, r)
    ensures StrictlyIncreasing(SyncPair(l, lw, r, rw, interp).0.t)
    ensures forall i :: 0 <= i < l.frameWidth ==>
      SyncPair(l, lw, r, rw, interp).0.x[i] == interp(l.t, l.x, SyncPair(l, lw, r, rw, interp).0.t[i])
      && SyncPair(l, lw, r, rw, interp).1.x[i] == interp(r.t, r.x, SyncPair(l, lw, r, rw, interp).1.t[i])
  {
    var minT, maxT := Max(l.t[0], r.t[0]), Min(Last(l.t), Last(r.t));
    GridIncreasing(minT, maxT, l.frameWidth);
    var g := Grid(minT, maxT, l.frameWidth);
    forall i | 0 <= i < l.frameWidth
      ensures minT <= g[i] <= maxT
    {
      assert i == 0 || g[0] < g[i];
      assert i == l.frameWidth - 1 || g[i] < g[l.frameWidth - 1];
    }
  }

  /**
   * The converse disjoint case is not detected: when the right frame ends before the left
   * one begins, the grid runs from the left frame's start down to the right frame's end,
   * and every resampled right-frame value is the right frame's last value.
   */
  lemma RightBeforeLeftFlattensRight(l: Content, lw: int, r: Content, rw: int, interp: Interpolator)
    requires Syncable(l) && Syncable(r) && StrictlyIncreasing(l.t) && StrictlyIncreasing(r.t)
    requires Last(r.t) < l.t[0]
    requires ExactAtNodes(interp, r.t, r.x)
    ensures !Disjoint(l, r)
    ensures SyncPair(l, lw, r, rw, interp).0.t[0] > Last(SyncPair(l, lw, r, rw, interp).0.t)
    ensures forall i :: 0 <= i < l.frameWidth ==> SyncPair(l, lw, r, rw, interp).1.x[i] == Last(r.x)
  {
    assert l.t[0] < Last(l.t);
    assert r.t[0] < Last(r.t);
    var minT, maxT := l.t[0], Last(r.t);
    var g := Grid(minT, maxT, l.frameWidth);
    GridDecreasing(minT, maxT, l.frameWidth);
    var p := SyncPair(l, lw, r, rw, interp);
    forall i | 0 <= i < l.frameWidth
      ensures p.1.x[i] == Last(r.x)
    {
      assert g[i] >= maxT;
      assert r.t[0] <= g[i];
      if g[i] == maxT {
        assert interp(r.t, r.x, r.t[|r.t| - 1]) == r.x[|r.t| - 1];
      }
    }
  }

  /** One single-frame slot of `FrameSync`, and whether its side may keep appending. */
  class FrameSyncConnector {
    var acceptReadings: bool
    var frame: SensorFrame?

    constructor ()
      ensures acceptReadings && frame == null
    {
      acceptReadings := true;
      frame := null;
    }
  }

  /** A frame that `trySync` can take: its content satisfies `Syncable`. */
  ghost predicate SlotReady(f: SensorFrame)
    reads f
  {
    && f.content.frameWidth >= 2
    && f.content.t.Length == f.content.frameWidth && f.content.x.Length == f.content.frameWidth
    && f.content.y.Length == f.content.frameWidth && f.content.z.Length == f.content.frameWidth
  }

  class FrameSync {
    const left: FrameSyncConnector
    const right: FrameSyncConnector
    /** Stands for the `SplineInterpolator` that `syncFrames` builds. */
    const interp: Interpolator
    var numValidFrames: int
    /** The trace of `onSync` calls, oldest first. */
    var synced: seq<(SensorFrame, SensorFrame)>

    function Connector(side: Side): FrameSyncConnector
    {
      if side == Left then left else right
    }

    function Other(side: Side): FrameSyncConnector
    {
      if side == Left then right else left
    }

    /** The objects `FrameSync` owns or holds: itself, its connectors and the frames in the slots. */
    ghost function Repr(): set<object>
      reads this, left, right
    {
      {this, left, right}
      + (if left.frame == null then {} else {left.frame as object})
      + (if right.frame == null then {} else {right.frame as object})
    }

    /** The counter equals the number of occupied slots, and every held frame can be synced. */
    ghost predicate Counted()
      reads this, left, right, left.frame, right.frame
    {
      && left != right
      && numValidFrames == (if left.frame == null then 0 else 1) + (if right.frame == null then 0 else 1)
      && (left.frame != null ==> SlotReady(left.frame))
      && (right.frame != null ==> SlotReady(right.frame))
      && (left.frame != null && right.frame != null ==> left.frame != right.frame)
    }

    /**
     * The state between two deposits: at most one slot is occupied, and a side accepts
     * readings exactly when its slot is empty.
     */
    ghost predicate Valid()
      reads this, left, right, left.frame, right.frame
    {
      && Counted()
      && (left.frame == null || right.frame == null)
      && (left.acceptReadings <==> left.frame == null)
      && (right.acceptReadings <==> right.frame == null)
    }

    constructor (interp: Interpolator)
      ensures Valid() && fresh(left) && fresh(right)
      ensures this.interp == interp && numValidFrames == 0 && synced == []
      ensures left.frame == null && right.frame == null
    {
      left := new FrameSyncConnector();
      right := new FrameSyncConnector();
      this.interp := interp;
      numValidFrames := 0;
      synced := [];
    }

    /**
     * `trySync`: when the counter has reached 2 both slots are emptied and the counter
     * reset; when both frames were present, both sides accept readings again, the pair is
     * zero-filled or resampled onto the shared grid, and `onSync` is called once with it.
     */
    method TrySync()
      requires Counted()
      modifies Repr()
      ensures Counted()
      ensures old(left.frame) == null || old(right.frame) == null ==>
        && left.frame == old(left.frame) && right.frame == old(right.frame)
        && numValidFrames == old(numValidFrames) && synced == old(synced)
        && left.acceptReadings == old(left.acceptReadings) && right.acceptReadings == old(right.acceptReadings)
        && (left.frame != null ==> unchanged(left.frame)) && (right.frame != null ==> unchanged(right.frame))
      ensures old(left.frame) != null && old(right.frame) != null ==>
        var lf, rf := old(left.frame), old(right.frame);
        && left.frame == null && right.frame == null && numValidFrames == 0
        && left.acceptReadings && right.acceptReadings
        && synced == old(synced) + [(lf, rf)]
        && fresh(lf.content) && fresh(rf.content)
        && (lf.content.Value(), rf.content.Value())
           == SyncPair(old(lf.content.Value()), lf.frameWidth, old(rf.content.Value()), rf.frameWidth, interp)
    {
      var leftFrame := left.frame;
      var rightFrame := right.frame;
      if numValidFrames >= 2 {
        left.frame := null;
        right.frame := null;
        numValidFrames := 0;
      }
      if leftFrame != null && rightFrame != null {
        assert left.frame == null && right.frame == null && numValidFrames == 0;
        Release(leftFrame, rightFrame);
      }
    }

    /**
     * The second half of `trySync` once both frames are taken out of their slots: both sides
     * accept readings again, the pair is synced and `onSync` is called with it.
     */
    method Release(lf: SensorFrame, rf: SensorFrame)
      requires SlotReady(lf) && SlotReady(rf) && lf != rf
      requires left != right && left.frame == null && right.frame == null && numValidFrames == 0
      modifies this, left, right, lf, rf
      ensures left.frame == null && right.frame == null && numValidFrames == 0
      ensures left.acceptReadings && right.acceptReadings
      ensures synced == old(synced) + [(lf, rf)]
      ensures fresh(lf.content) && fresh(rf.content)
      ensures (lf.content.Value(), rf.content.Value())
           == SyncPair(old(lf.content.Value()), lf.frameWidth, old(rf.content.Value()), rf.frameWidth, interp)
    {
      left.acceptReadings := true;
      right.acceptReadings := true;
      SyncContents(lf, rf, interp);
      synced := synced + [(lf, rf)];
    }

    /**
     * The `FrameSyncConnector.frame` setter with a frame: the slot takes it, the counter
     * goes up, the side stops accepting readings, and `trySync` runs. The caller deposits
     * only while its side accepts readings, which is what keeps a slot from being overwritten.
     */
    method Deposit(side: Side, f: SensorFrame)
      requires Valid() && Connector(side).acceptReadings
      requires SlotReady(f) && f !in Repr()
      modifies Repr(), f
      ensures Valid()
      ensures old(Other(side).frame) == null ==>
        && Connector(side).frame == f && !Connector(side).acceptReadings
        && Other(side).frame == null && Other(side).acceptReadings
        && numValidFrames == 1 && synced == old(synced) && f.content == old(f.content) && f.frameSize == old(f.frameSize)
      ensures old(Other(side).frame) != null ==>
        var lf := if side == Left then f else old(left.frame);
        var rf := if side == Right then f else old(right.frame);
        && left.frame == null && right.frame == null && numValidFrames == 0
        && left.acceptReadings && right.acceptReadings
        && synced == old(synced) + [(lf, rf)]
        && fresh(lf.content) && fresh(rf.content)
        && (lf.content.Value(), rf.content.Value())
           == SyncPair(old(lf.content.Value()), lf.frameWidth, old(rf.content.Value()), rf.frameWidth, interp)
    {
      var c := Connector(side);
      c.frame := f;
      numValidFrames := numValidFrames + 1;
      c.acceptReadings := false;
      TrySync();
    }
  }

  /**
   * The body of `trySync` once both frames are taken: zero-fill both when the left frame
   * ends before the right one begins, otherwise resample both onto the shared grid.
   */
  method SyncContents(leftFrame: SensorFrame, rightFrame: SensorFrame, interp: Interpolator)
    requires SlotReady(leftFrame) && SlotReady(rightFrame) && leftFrame != rightFrame
    modifies leftFrame, rightFrame
    ensures fresh(leftFrame.content) && fresh(rightFrame.content)
    ensures (leftFrame.content.Value(), rightFrame.content.Value())
         == SyncPair(old(leftFrame.content.Value()), leftFrame.frameWidth,
                     old(rightFrame.content.Value()), rightFrame.frameWidth, interp)
  {
    ghost var l, r := leftFrame.content.Value(), rightFrame.content.Value();
    var lt, rt := leftFrame.content.t, rightFrame.content.t;
    if lt[lt.Length - 1] < rt[0] {
      assert Disjoint(l, r);
      leftFrame.content := new SensorFrameContent.Zeros(leftFrame.content.frameWidth);
      rightFrame.content := new SensorFrameContent.Zeros(rightFrame.content.frameWidth);
    } else {
      assert !Disjoint(l, r);
      var minT := Max(lt[0], rt[0]);
      var maxT := Min(lt[lt.Length - 1], rt[rt.Length - 1]);
      var newT := NewGrid(minT, maxT, leftFrame.content.frameWidth);
      leftFrame.SyncToTime(newT, interp);
      assert leftFrame.content.Value() == SyncedTo(l, leftFrame.frameWidth, newT[..], interp);
      rightFrame.SyncToTime(newT, interp);
      assert rightFrame.content.Value() == SyncedTo(r, rightFrame.frameWidth, newT[..], interp);
    }
  }

  /** The array `newT` of `trySync`: `DoubleArray(w) { index -> minT + index * stepSize }`. */
  method NewGrid(minT: real, maxT: real, w: int) returns (newT: array<real>)
    requires w >= 2
    ensures fresh(newT) && newT[..] == Grid(minT, maxT, w)
  {
    var stepSize := (maxT - minT) / (w - 1) as real;
    newT := new real[w](i => minT + i as real * stepSize);
    assert newT[..] == Grid(minT, maxT, w);
  }

  /** A pair in (left, right) order, built from this side's element and the other side's. */
  function Oriented<T>(side: Side, mine: T, theirs: T): (T, T)
  {
    if side == Left then (mine, theirs) else (theirs, mine)
  }

  /** No backing array of one content is a backing array of the other. */
  predicate Apart(a: SensorFrameContent, b: SensorFrameContent)
  {
    {a.t, a.x, a.y, a.z} !! {b.t, b.x, b.y, b.z}
  }

  /**
   * The per-sensor view model: it owns the live frame, checks the overlap once at
   * construction, and feeds full frames to one side of a `FrameSync` (or, without one,
   * shows the frame's averages). `written` is what the optional raw-sample sink `onWrite`
   * would receive if one were present: every accepted sample, in order.
   */
  class Sensor3DViewModel {
    const frame: SensorFrame
    const overlap: real
    const sync: FrameSync?
    const side: Side
    var sensorState: SensorState
    var written: seq<Sample>

    ghost predicate Valid()
      reads this, frame, frame.content
      reads if sync == null then {} else sync.Repr()
    {
      && frame.Valid() && ValidOverlap(overlap)
      && (sync != null ==> sync.Valid() && frame.frameWidth >= 2 && frame !in sync.Repr())
      && (sync != null && sync.Other(side).frame != null ==> Apart(frame.content, sync.Other(side).frame.content))
    }

    constructor (w: Width, overlap: real, sync: FrameSync?, side: Side)
      requires ValidOverlap(overlap)
      requires sync != null ==> sync.Valid() && w >= 2
      ensures Valid() && fresh(frame) && fresh(frame.content)
      ensures fresh(frame.content.t) && fresh(frame.content.x) && fresh(frame.content.y) && fresh(frame.content.z)
      ensures frame.frameWidth == w && frame.frameSize == 0
      ensures this.overlap == overlap && this.sync == sync && this.side == side
      ensures sensorState == SensorState(Some(0.0), Some(0.0), Some(0.0)) && written == []
    {
      frame := new SensorFrame(w);
      this.overlap := overlap;
      this.sync := sync;
      this.side := side;
      sensorState := SensorState(Some(0.0), Some(0.0), Some(0.0));
      written := [];
    }

    /** `Sensor3DViewModel(...)` with its `init` check: an overlap outside [0, 1] throws. */
    static method Create(w: Width, overlap: real, sync: FrameSync?, side: Side) returns (r: Construction)
      requires sync != null ==> sync.Valid() && w >= 2
      ensures r.Thrown? <==> !ValidOverlap(overlap)
      ensures r.Thrown? ==> r.error == OverlapValueException(overlap)
      ensures r.Constructed? ==> fresh(r.model) && r.model.Valid() && r.model.frame.frameWidth == w
      ensures r.Constructed? ==> r.model.overlap == overlap && r.model.sync == sync && r.model.side == side
    {
      if overlap < 0.0 || overlap > 1.0 {
        return Thrown(OverlapValueException(overlap));
      }
      var m := new Sensor3DViewModel(w, overlap, sync, side);
      r := Constructed(m);
    }

    /** Whether `appendReadings` lets a sample through: no sync, or this side's flag is set. */
    ghost predicate Accepting()
      reads this, sync, (if sync == null then {} else {sync.left, sync.right})
    {
      sync == null || sync.Connector(side).acceptReadings
    }

    /** What `updateReadings` does to the frame for one sample: the new buffer, and whether it is full. */
    ghost function Next(t: int, x: real, y: real, z: real): (Buffer, bool)
      requires frame.Valid()
      reads frame, frame.content, frame.content.t, frame.content.x, frame.content.y, frame.content.z
    {
      Append(frame.State(), frame.frameWidth, Reading(t as real, x, y, z))
    }

    /**
     * `appendReadings`: drops the sample while this side waits on the synchronizer;
     * otherwise records it on the sink and appends it, and rotates the frame once it is full:
     * without a synchronizer the averages are shown; with one, a copy of the full frame is
     * handed to it, and synced with the other side's frame when that one is waiting.
     */
    method AppendReadings(t: int, x: real, y: real, z: real)
      requires Valid()
      modifies this, frame, frame.content.t, frame.content.x, frame.content.y, frame.content.z
      modifies if sync == null then {} else sync.Repr()
      ensures Valid()
      ensures sync != null ==> fresh(sync.Repr() - old(sync.Repr()))
      ensures !old(Accepting()) ==>
        && written == old(written) && sensorState == old(sensorState)
        && frame.content == old(frame.content) && frame.State() == old(frame.State())
        && sync.left.frame == old(sync.left.frame) && sync.right.frame == old(sync.right.frame)
        && sync.synced == old(sync.synced)
      ensures old(Accepting()) ==> written == old(written) + [Sample(t, x, y, z)]
      ensures old(Accepting()) && sync != null ==> sensorState == old(sensorState)
      ensures old(Accepting()) ==>
        var step := old(Next(t, x, y, z));
        && frame.State() == (if step.1 then Cleared(step.0, frame.frameWidth, OverlapCount(frame.frameWidth, overlap)) else step.0)
        && (!step.1 ==> frame.content == old(frame.content) && sensorState == old(sensorState))
        && (step.1 ==> fresh(frame.content) && fresh(frame.content.t) && fresh(frame.content.x)
                       && fresh(frame.content.y) && fresh(frame.content.z))
      ensures old(Accepting()) && sync == null && old(Next(t, x, y, z)).1 ==>
        var step := old(Next(t, x, y, z));
        sensorState == SensorState(Mean(step.0.content.x), Mean(step.0.content.y), Mean(step.0.content.z))
      ensures old(Accepting()) && sync != null && !old(Next(t, x, y, z)).1 ==>
        && sync.left.frame == old(sync.left.frame) && sync.right.frame == old(sync.right.frame)
        && sync.synced == old(sync.synced)
      ensures old(Accepting()) && sync != null && old(Next(t, x, y, z)).1 && old(sync.Other(side).frame) == null ==>
        var step := old(Next(t, x, y, z));
        var held := sync.Connector(side).frame;
        && held != null && fresh(held) && !sync.Connector(side).acceptReadings
        && held.content == old(frame.content)
        && held.content.Value() == step.0.content && held.frameSize == step.0.size
        && sync.synced == old(sync.synced)
      ensures old(Accepting()) && sync != null && old(Next(t, x, y, z)).1 && old(sync.Other(side).frame) != null ==>
        && sync.left.frame == null && sync.right.frame == null
        && |sync.synced| == |old(sync.synced)| + 1
      ensures old(Accepting()) && sync != null && old(Next(t, x, y, z)).1 && old(sync.Other(side).frame) != null ==>
        var step := old(Next(t, x, y, z));
        var pair := sync.synced[|sync.synced| - 1];
        var before := Oriented(side, step.0.content, old(sync.Other(side).frame.content.Value()));
        && sync.synced == old(sync.synced) + [pair]
        && fresh(Oriented(side, pair.0, pair.1).0) && Oriented(side, pair.0, pair.1).0.frameWidth == frame.frameWidth
        && Oriented(side, pair.0, pair.1).1 == old(sync.Other(side).frame)
        && (pair.0.content.Value(), pair.1.content.Value())
           == SyncPair(before.0, pair.0.frameWidth, before.1, pair.1.frameWidth, sync.interp)
    {
      if sync != null && !sync.Connector(side).acceptReadings {
        return;
      }
      Accept(t, x, y, z);
    }

    /** The accepting branch of `appendReadings`, by the three states of the synchronizer. */
    method Accept(t: int, x: real, y: real, z: real)
      requires Valid() && Accepting()
      modifies this, frame, frame.content.t, frame.content.x, frame.content.y, frame.content.z
      modifies if sync == null then {} else sync.Repr()
      ensures Valid()
      ensures written == old(written) + [Sample(t, x, y, z)]
      ensures sync != null ==> sensorState == old(sensorState)
      ensures sync != null ==> fresh(sync.Repr() - old(sync.Repr()))
      ensures var step := old(Next(t, x, y, z));
        && frame.State() == (if step.1 then Cleared(step.0, frame.frameWidth, OverlapCount(frame.frameWidth, overlap)) else step.0)
        && (!step.1 ==> frame.content == old(frame.content) && sensorState == old(sensorState))
        && (step.1 ==> fresh(frame.content) && fresh(frame.content.t) && fresh(frame.content.x)
                       && fresh(frame.content.y) && fresh(frame.content.z))
      ensures sync == null && old(Next(t, x, y, z)).1 ==>
        var step := old(Next(t, x, y, z));
        sensorState == SensorState(Mean(step.0.content.x), Mean(step.0.content.y), Mean(step.0.content.z))
      ensures sync != null && !old(Next(t, x, y, z)).1 ==>
        && sync.left.frame == old(sync.left.frame) && sync.right.frame == old(sync.right.frame)
        && sync.synced == old(sync.synced)
      ensures sync != null && old(Next(t, x, y, z)).1 && old(sync.Other(side).frame) == null ==>
        var step := old(Next(t, x, y, z));
        var held := sync.Connector(side).frame;
        && held != null && fresh(held) && !sync.Connector(side).acceptReadings
        && held.content == old(frame.content)
        && held.content.Value() == step.0.content && held.frameSize == step.0.size
        && sync.synced == old(sync.synced)
      ensures sync != null && old(Next(t, x, y, z)).1 && old(sync.Other(side).frame) != null ==>
        && sync.left.frame == null && sync.right.frame == null
        && |sync.synced| == |old(sync.synced)| + 1
      ensures sync != null && old(Next(t, x, y, z)).1 && old(sync.Other(side).frame) != null ==>
        var step := old(Next(t, x, y, z));
        var pair := sync.synced[|sync.synced| - 1];
        var before := Oriented(side, step.0.content, old(sync.Other(side).frame.content.Value()));
        && sync.synced == old(sync.synced) + [pair]
        && fresh(Oriented(side, pair.0, pair.1).0) && Oriented(side, pair.0, pair.1).0.frameWidth == frame.frameWidth
        && Oriented(side, pair.0, pair.1).1 == old(sync.Other(side).frame)
        && (pair.0.content.Value(), pair.1.content.Value())
           == SyncPair(before.0, pair.0.frameWidth, before.1, pair.1.frameWidth, sync.interp)
    {
      if sync == null {
        AcceptAlone(t, x, y, z);
      } else if sync.Other(side).frame == null {
        AcceptHolding(t, x, y, z);
      } else {
        AcceptPairing(t, x, y, z);
      }
    }

    /** `Accept` without a synchronizer: a full frame shows its averages. */
    method AcceptAlone(t: int, x: real, y: real, z: real)
      requires Valid() && sync == null
      modifies this, frame, frame.content.t, frame.content.x, frame.content.y, frame.content.z
      ensures Valid()
      ensures written == old(written) + [Sample(t, x, y, z)]
      ensures var step := old(Next(t, x, y, z));
        && frame.State() == (if step.1 then Cleared(step.0, frame.frameWidth, OverlapCount(frame.frameWidth, overlap)) else step.0)
        && (!step.1 ==> frame.content == old(frame.content) && sensorState == old(sensorState))
        && (step.1 ==> fresh(frame.content) && fresh(frame.content.t) && fresh(frame.content.x)
                       && fresh(frame.content.y) && fresh(frame.content.z))
        && (step.1 ==> sensorState == SensorState(Mean(step.0.content.x), Mean(step.0.content.y), Mean(step.0.content.z)))
    {
      written := written + [Sample(t, x, y, z)];
      ghost var step := Next(t, x, y, z);
      var full := frame.UpdateReadings(t as real, x, y, z);
      assert frame.State() == step.0 && full == step.1;
      if full {
        RotateAlone();
      }
    }

    /** `Accept` while the other side's slot is empty: a full frame's copy waits in this side's slot. */
    method AcceptHolding(t: int, x: real, y: real, z: real)
      requires Valid() && Accepting() && sync != null && sync.Other(side).frame == null
      modifies this, frame, frame.content.t, frame.content.x, frame.content.y, frame.content.z, sync.Repr()
      ensures Valid()
      ensures written == old(written) + [Sample(t, x, y, z)] && sensorState == old(sensorState)
      ensures fresh(sync.Repr() - old(sync.Repr()))
      ensures var step := old(Next(t, x, y, z));
        && frame.State() == (if step.1 then Cleared(step.0, frame.frameWidth, OverlapCount(frame.frameWidth, overlap)) else step.0)
        && (!step.1 ==> frame.content == old(frame.content))
        && (step.1 ==> fresh(frame.content) && fresh(frame.content.t) && fresh(frame.content.x)
                       && fresh(frame.content.y) && fresh(frame.content.z))
      ensures !old(Next(t, x, y, z)).1 ==>
        && sync.left.frame == old(sync.left.frame) && sync.right.frame == old(sync.right.frame)
        && sync.synced == old(sync.synced)
      ensures old(Next(t, x, y, z)).1 ==>
        var step := old(Next(t, x, y, z));
        var held := sync.Connector(side).frame;
        && held != null && fresh(held) && !sync.Connector(side).acceptReadings
        && held.content == old(frame.content)
        && held.content.Value() == step.0.content && held.frameSize == step.0.size
        && sync.synced == old(sync.synced)
    {
      written := written + [Sample(t, x, y, z)];
      ghost var step := Next(t, x, y, z);
      var full := frame.UpdateReadings(t as real, x, y, z);
      assert frame.State() == step.0 && full == step.1;
      if full {
        assert this !in sync.Repr();
        RotateHolding();
      }
    }

    /** `Accept` while the other side's frame waits: a full frame's copy is synced with it. */
    method AcceptPairing(t: int, x: real, y: real, z: real)
      requires Valid() && Accepting() && sync != null && sync.Other(side).frame != null
      modifies this, frame, frame.content.t, frame.content.x, frame.content.y, frame.content.z, sync.Repr()
      ensures Valid()
      ensures written == old(written) + [Sample(t, x, y, z)] && sensorState == old(sensorState)
      ensures fresh(sync.Repr() - old(sync.Repr()))
      ensures var step := old(Next(t, x, y, z));
        && frame.State() == (if step.1 then Cleared(step.0, frame.frameWidth, OverlapCount(frame.frameWidth, overlap)) else step.0)
        && (!step.1 ==> frame.content == old(frame.content))
        && (step.1 ==> fresh(frame.content) && fresh(frame.content.t) && fresh(frame.content.x)
                       && fresh(frame.content.y) && fresh(frame.content.z))
      ensures !old(Next(t, x, y, z)).1 ==>
        && sync.left.frame == old(sync.left.frame) && sync.right.frame == old(sync.right.frame)
        && sync.synced == old(sync.synced)
      ensures old(Next(t, x, y, z)).1 ==>
        && sync.left.frame == null && sync.right.frame == null
        && |sync.synced| == |old(sync.synced)| + 1
      ensures old(Next(t, x, y, z)).1 ==>
        var step := old(Next(t, x, y, z));
        var pair := sync.synced[|sync.synced| - 1];
        var before := Oriented(side, step.0.content, old(sync.Other(side).frame.content.Value()));
        && sync.synced == old(sync.synced) + [pair]
        && fresh(Oriented(side, pair.0, pair.1).0) && Oriented(side, pair.0, pair.1).0.frameWidth == frame.frameWidth
        && Oriented(side, pair.0, pair.1).1 == old(sync.Other(side).frame)
        && (pair.0.content.Value(), pair.1.content.Value())
           == SyncPair(before.0, pair.0.frameWidth, before.1, pair.1.frameWidth, sync.interp)
    {
      assert this !in sync.Repr();
      written := written + [Sample(t, x, y, z)];
      ghost var step := Next(t, x, y, z);
      ghost var waiting := sync.Other(side).frame.content.Value();
      var full := frame.UpdateReadings(t as real, x, y, z);
      assert frame.State() == step.0 && full == step.1;
      assert sync.Other(side).frame.content.Value() == waiting;
      assert sync.Repr() == old(sync.Repr()) && sync.synced == old(sync.synced);
      if full {
        assert this !in sync.Repr();
        RotatePairing();
      }
    }

    /** The full-frame branch without a synchronizer: show the averages, then clear the frame. */
    method RotateAlone()
      requires Valid() && sync == null
      modifies this`sensorState, frame
      ensures Valid()
      ensures frame.State() == Cleared(old(frame.State()), frame.frameWidth, OverlapCount(frame.frameWidth, overlap))
      ensures fresh(frame.content) && fresh(frame.content.t) && fresh(frame.content.x)
      ensures fresh(frame.content.y) && fresh(frame.content.z)
      ensures sensorState == SensorState(Mean(old(frame.State()).content.x),
                                         Mean(old(frame.State()).content.y), Mean(old(frame.State()).content.z))
    {
      var (ax, ay, az) := frame.GetAverages();
      sensorState := SensorState(ax, ay, az);
      var cleared := frame.Clear(overlap);
    }

    /** The full-frame branch while the other slot is empty: the copy waits in this side's slot, then the frame is cleared. */
    method RotateHolding()
      requires Valid() && Accepting() && sync != null && sync.Other(side).frame == null
      modifies frame, sync.Repr()
      ensures Valid()
      ensures frame.State() == Cleared(old(frame.State()), frame.frameWidth, OverlapCount(frame.frameWidth, overlap))
      ensures fresh(frame.content) && fresh(frame.content.t) && fresh(frame.content.x)
      ensures fresh(frame.content.y) && fresh(frame.content.z)
      ensures fresh(sync.Repr() - old(sync.Repr()))
      ensures var held := sync.Connector(side).frame;
        && held != null && fresh(held) && !sync.Connector(side).acceptReadings
        && held.content == old(frame.content)
        && held.content.Value() == old(frame.State()).content && held.frameSize == old(frame.frameSize)
        && sync.synced == old(sync.synced)
    {
      HandOff();
      assert frame.Valid();
      var cleared := frame.Clear(overlap);
      assert sync.Valid() && frame !in sync.Repr();
    }

    /** The full-frame branch while the other side's frame waits: the copy and that frame are synced, then the frame is cleared. */
    method RotatePairing()
      requires Valid() && Accepting() && sync != null && sync.Other(side).frame != null
      modifies frame, sync.Repr()
      ensures Valid()
      ensures frame.State() == Cleared(old(frame.State()), frame.frameWidth, OverlapCount(frame.frameWidth, overlap))
      ensures fresh(frame.content) && fresh(frame.content.t) && fresh(frame.content.x)
      ensures fresh(frame.content.y) && fresh(frame.content.z)
      ensures fresh(sync.Repr() - old(sync.Repr()))
      ensures sync.left.frame == null && sync.right.frame == null && |sync.synced| == |old(sync.synced)| + 1
      ensures var pair := sync.synced[|sync.synced| - 1];
        var before := Oriented(side, old(frame.State()).content, old(sync.Other(side).frame.content.Value()));
        && sync.synced == old(sync.synced) + [pair]
        && fresh(Oriented(side, pair.0, pair.1).0) && Oriented(side, pair.0, pair.1).0.frameWidth == frame.frameWidth
        && Oriented(side, pair.0, pair.1).1 == old(sync.Other(side).frame)
        && (pair.0.content.Value(), pair.1.content.Value())
           == SyncPair(before.0, pair.0.frameWidth, before.1, pair.1.frameWidth, sync.interp)
    {
      HandOff();
      assert frame.Valid();
      var cleared := frame.Clear(overlap);
      assert sync.Valid() && frame !in sync.Repr();
    }

    /**
     * `frameSyncConnector.frame = SensorFrame.from(_frame)`: deposit a copy sharing the content.
     * When the other side was waiting, the copy and the waiting frame are synced as `Deposit` says.
     */
    method HandOff()
      requires Valid() && sync != null && Accepting()
      modifies sync.Repr()
      ensures Valid()
      ensures frame.Valid() && sync.Valid() && frame !in sync.Repr()
      ensures frame.State() == old(frame.State()) && sync.Other(side).frame == null
      ensures fresh(sync.Repr() - old(sync.Repr()))
      ensures old(sync.Other(side).frame) == null ==>
        var held := sync.Connector(side).frame;
        && held != null && fresh(held) && !sync.Connector(side).acceptReadings
        && held.content == frame.content && held.frameSize == frame.frameSize
        && sync.synced == old(sync.synced)
      ensures old(sync.Other(side).frame) != null ==>
        && sync.left.frame == null && sync.right.frame == null
        && |sync.synced| == |old(sync.synced)| + 1
      ensures old(sync.Other(side).frame) != null ==>
        var pair := sync.synced[|sync.synced| - 1];
        var before := Oriented(side, old(frame.State()).content, old(sync.Other(side).frame.content.Value()));
        && sync.synced == old(sync.synced) + [pair]
        && fresh(Oriented(side, pair.0, pair.1).0) && Oriented(side, pair.0, pair.1).0.frameWidth == frame.frameWidth
        && Oriented(side, pair.0, pair.1).1 == old(sync.Other(side).frame)
        && (pair.0.content.Value(), pair.1.content.Value())
           == SyncPair(before.0, pair.0.frameWidth, before.1, pair.1.frameWidth, sync.interp)
    {
      var copy := SensorFrame.From(frame);
      assert frame !in sync.Repr() && copy !in sync.Repr();
      sync.Deposit(side, copy);
      assert frame.content == old(frame.content) && frame.frameSize == old(frame.frameSize);
      assert frame.Valid();
    }
  }
}

=== FILE: numerics.dfy ===
/**
 * Kotlin/JVM number semantics used across the pipeline, stated over `int` and `real`.
 *
 * Every `Double` of the app is a `real` here; `Int` and `Long` are bounded integers,
 * and the conversions that the app performs (`roundToInt`, `toLong`, `Int` division)
 * are written out with their saturation and truncation rules.
 */
module Numerics {

  datatype Option<+T> = None | Some(value: T)

  const INT_MIN: int := -0x8000_0000
  const INT_MAX: int := 0x7fff_ffff
  const LONG_MIN: int := -0x8000_0000_0000_0000
  const LONG_MAX: int := 0x7fff_ffff_ffff_ffff

  /** Kotlin `Int`. */
  type Int32 = n: int | -0x8000_0000 <= n <= 0x7fff_ffff

  /** A non-negative Kotlin `Int`, as used for array sizes. */
  type Width = n: int | 0 <= n <= 0x7fff_ffff

  function Abs(r: real): (a: real)
    ensures a >= 0.0
    ensures a == r || a == -r
  {
    if r < 0.0 then -r else r
  }

  function Max(a: real, b: real): (m: real)
    ensures m >= a && m >= b
    ensures m == a || m == b
  {
    if a < b then b else a
  }

  function Min(a: real, b: real): (m: real)
    ensures m <= a && m <= b
    ensures m == a || m == b
  {
    if b < a then b else a
  }

  /**
   * Kotlin `roundToInt`: round half toward positive infinity (`Math.round`), then
   * saturate at the bounds of `Int`.
   */
  function RoundToInt(v: real): (n: Int32)
    ensures INT_MIN <= (v + 0.5).Floor <= INT_MAX ==> v - 0.5 < n as real <= v + 0.5
    ensures (v + 0.5).Floor > INT_MAX ==> n == INT_MAX
    ensures (v + 0.5).Floor < INT_MIN ==> n == INT_MIN
  {
    var f := (v + 0.5).Floor;
    if f > INT_MAX then INT_MAX else if f < INT_MIN then INT_MIN else f
  }

  /** Kotlin/JVM integer division, which truncates toward zero. */
  function TruncDiv(a: int, b: int): (q: int)
    requires b > 0
    ensures Abs(q as real) * b as real <= Abs(a as real)
    ensures Abs(a as real) < (Abs(q as real) + 1.0) * b as real
    ensures (a >= 0 ==> q >= 0) && (a <= 0 ==> q <= 0)
  {
    if a >= 0 then a / b else -((-a) / b)
  }

  /** Kotlin `Double.toLong()`: truncate toward zero, saturating at the bounds of `Long`. */
  function TruncToLong(r: real): (n: int)
    ensures LONG_MIN <= n <= LONG_MAX
    ensures LONG_MIN as real <= r <= LONG_MAX as real ==> Abs(n as real) <= Abs(r) < Abs(n as real) + 1.0
    ensures LONG_MIN as real <= r <= LONG_MAX as real ==> (r >= 0.0 ==> n >= 0) && (r <= 0.0 ==> n <= 0)
  {
    var t := if r >= 0.0 then r.Floor else -((-r).Floor);
    if t > LONG_MAX then LONG_MAX else if t < LONG_MIN then LONG_MIN else t
  }

  /** `n` zeros: what `DoubleArray(n) { 0.0 }` and the padding of `copyOf` hold. */
  function Zeros(n: nat): (s: seq<real>)
    ensures |s| == n
    ensures forall i :: 0 <= i < n ==> s[i] == 0.0
  {
    seq(n, _ => 0.0)
  }

  /** The sum of `s`, accumulated from the first element to the last. */
  function Sum(s: seq<real>): real
  {
    if |s| == 0 then 0.0 else Sum(s[..|s| - 1]) + s[|s| - 1]
  }

  /** The arithmetic mean; `None` stands for the `NaN` the JVM libraries give for no values. */
  function Mean(s: seq<real>): (m: Option<real>)
    ensures m.Some? <==> |s| > 0
    ensures m.Some? ==> m.value * |s| as real == Sum(s)
  {
    if |s| == 0 then None else Some(Sum(s) / |s| as real)
  }

  /** Summing a sequence that ends in zeros gives the sum of its prefix. */
  lemma {:induction false} SumZeroTail(s: seq<real>, k: nat)
    requires k <= |s|
    requires forall i :: k <= i < |s| ==> s[i] == 0.0
    ensures Sum(s) == Sum(s[..k])
  {
    if |s| > k {
      assert s[..|s| - 1][..k] == s[..k];
      SumZeroTail(s[..|s| - 1], k);
    } else {
      assert s[..k] == s;
    }
  }
}

=== FILE: preprocessing.dfy ===
/**
 * `SensorFramePreprocessor` (app/src/main/java/com/landenlloyd/gesturements/Preprocessing.kt):
 * signal-processing steps that replace the content object of the frame it wraps.
 *
 * The JDSP routines (Butterworth filters, the moving average, the discrete Fourier
 * transform) are parameters of the preprocessor; the model keeps what the preprocessor
 * itself decides: which axis goes through which routine with which arguments, which
 * arrays are passed through, and how the timestamps are trimmed after smoothing.
 */
module Preprocessing {
  import opened Numerics
  import opened SensorFrames

  /** A Butterworth low- or high-pass filter: signal, sampling rate, order, cutoff. */
  type CutoffFilter = (seq<real>, real, int, real) -> seq<real>

  /** A Butterworth band-pass filter: signal, sampling rate, order, lower and upper cutoff. */
  type BandFilter = (seq<real>, real, int, real, real) -> seq<real>

  /** JDSP `Smooth(signal, windowSize, mode).smoothSignal()`. */
  type Smoother = (seq<real>, int, string) -> seq<real>

  /** JDSP `DiscreteFourier`: signal and rounded sampling rate to (magnitudes, frequencies). */
  type Spectrum = (seq<real>, int) -> (seq<real>, seq<real>)

  /** The JDSP routines the preprocessor calls. */
  datatype Dsp = Dsp(lowPass: CutoffFilter, highPass: CutoffFilter, bandPass: BandFilter,
                     smooth: Smoother, fourier: Spectrum)

  /** Kotlin `take(k)`: the first `k` elements, or all of them when there are fewer. */
  function Take(s: seq<real>, k: nat): (r: seq<real>)
    ensures |r| == (if k <= |s| then k else |s|)
    ensures forall i :: 0 <= i < |r| ==> r[i] == s[i]
  {
    if k <= |s| then s[..k] else s
  }

  /** Kotlin `takeLast(k)`: the last `k` elements, or all of them when there are fewer. */
  function TakeLast(s: seq<real>, k: nat): (r: seq<real>)
    ensures |r| == (if k <= |s| then k else |s|)
    ensures forall i :: 0 <= i < |r| ==> r[i] == s[|s| - |r| + i]
  {
    if k <= |s| then s[|s| - k..] else s
  }

  /** The timestamps kept by `smoothByMovingAverage` for `n` smoothed samples of a width-`w` frame. */
  function TrimmedTimes(t: seq<real>, w: nat, n: nat): seq<real>
  {
    TakeLast(Take(t, (w + n) / 2), n)
  }

  /**
   * When the smoothed signal is not longer than the frame, the kept timestamps are the
   * contiguous block of `n` starting at `(w - n) / 2`: half the dropped samples come off
   * the head, and when an odd number is dropped the extra one comes off the tail.
   */
  lemma CenteredTrim(t: seq<real>, w: nat, n: nat)
    requires |t| == w && n <= w
    ensures (w + n) / 2 - n == (w - n) / 2
    ensures TrimmedTimes(t, w, n) == t[(w - n) / 2..(w - n) / 2 + n]
    ensures |TrimmedTimes(t, w, n)| == n
    ensures (w - (w - n) / 2 - n) - (w - n) / 2 == (if (w - n) % 2 == 1 then 1 else 0)
  {
    var head := (w - n) / 2;
    assert (w + n) / 2 == head + n;
    var r := TrimmedTimes(t, w, n);
    assert r == t[..head + n][head..];
  }

  /** How far a traversal of `t` gets when it also indexes three arrays: the shortest length. */
  function MinLength(nt: nat, nx: nat, ny: nat, nz: nat): (m: nat)
    ensures m <= nt && m <= nx && m <= ny && m <= nz
    ensures m == nt || m == nx || m == ny || m == nz
  {
    if nx < nt || ny < nt || nz < nt then
      (if nx <= ny && nx <= nz then nx else if ny <= nz then ny else nz)
    else nt
  }

  class SensorFramePreprocessor {
    var frame: SensorFrame
    const dsp: Dsp

    constructor (frame: SensorFrame, dsp: Dsp)
      ensures this.frame == frame && this.dsp == dsp
    {
      this.frame := frame;
      this.dsp := dsp;
    }

    /** The sampling rate is defined: there is a first and a last timestamp, and they differ. */
    predicate RateDefined()
      reads this, frame, frame.content, frame.content.t
    {
      frame.content.t.Length >= 1 && frame.content.t[frame.content.t.Length - 1] != frame.content.t[0]
    }

    /**
     * `getFrameFrequency`: the content's width per nanosecond between the first and the last
     * timestamp, scaled to samples per second. It divides by the width, not by the number
     * of intervals between the timestamps.
     */
    function GetFrameFrequency(): (hz: real)
      requires RateDefined()
      reads this, frame, frame.content, frame.content.t
      ensures hz * (frame.content.t[frame.content.t.Length - 1] - frame.content.t[0])
              == frame.content.frameWidth as real * 1_000_000_000.0
    {
      var t := frame.content.t;
      frame.content.frameWidth as real / (t[t.Length - 1] - t[0]) * 1_000_000_000.0
    }

    /**
     * On a frame whose `w` timestamps are evenly spaced `d` nanoseconds apart the true rate is
     * `1e9 / d`, but `GetFrameFrequency` reports `w / (w - 1)` times that.
     */
    lemma UniformRateOvercounts(d: real)
      requires d > 0.0
      requires frame.content.t.Length >= 2 && frame.content.frameWidth == frame.content.t.Length
      requires forall i :: 0 <= i < frame.content.t.Length ==>
                 frame.content.t[i] == frame.content.t[0] + i as real * d
      ensures RateDefined()
      ensures GetFrameFrequency() * (frame.content.t.Length - 1) as real
              == frame.content.t.Length as real * (1_000_000_000.0 / d)
      ensures GetFrameFrequency() > 1_000_000_000.0 / d
    {
      var t := frame.content.t;
      var w := t.Length;
      assert t[w - 1] - t[0] == (w - 1) as real * d;
      var hz := GetFrameFrequency();
      assert hz * ((w - 1) as real * d) == w as real * 1_000_000_000.0;
      assert hz * (w - 1) as real == w as real * (1_000_000_000.0 / d);
      assert (w - 1) as real * hz > (w - 1) as real * (1_000_000_000.0 / d);
    }

    /**
     * `forEach(function)`: calls the callback once per timestamp index in increasing order,
     * with the timestamp truncated to `Long`. The calls are returned as a trace; when an axis
     * array is shorter than `t` the traversal stops with an index error at the first index
     * it lacks (`completed` is false), after the calls for the indices before it.
     */
    method ForEach() returns (calls: seq<(int, real, real, real)>, completed: bool)
      ensures var c := frame.content;
        var m := MinLength(c.t.Length, c.x.Length, c.y.Length, c.z.Length);
        && |calls| == m
        && (forall i :: 0 <= i < m ==> calls[i] == (TruncToLong(c.t[i]), c.x[i], c.y[i], c.z[i]))
      ensures var c := frame.content;
        completed <==> c.x.Length >= c.t.Length && c.y.Length >= c.t.Length && c.z.Length >= c.t.Length
    {
      var c := frame.content;
      calls := [];
      var i := 0;
      while i < c.t.Length
        invariant 0 <= i <= c.t.Length
        invariant i <= c.x.Length && i <= c.y.Length && i <= c.z.Length
        invariant |calls| == i
        invariant forall j :: 0 <= j < i ==> calls[j] == (TruncToLong(c.t[j]), c.x[j], c.y[j], c.z[j])
      {
        if i >= c.x.Length || i >= c.y.Length || i >= c.z.Length {
          return calls, false;
        }
        calls := calls + [(TruncToLong(c.t[i]), c.x[i], c.y[i], c.z[i])];
        i := i + 1;
      }
      completed := true;
    }

    /**
     * `fourierTransform`: the spectrum of each axis at the rounded sampling rate; the frame
     * is only read. Uploading the spectra is not part of this model.
     */
    method FourierTransform() returns (sx: (seq<real>, seq<real>), sy: (seq<real>, seq<real>), sz: (seq<real>, seq<real>))
      requires RateDefined()
      ensures var fs := RoundToInt(GetFrameFrequency());
        && sx == dsp.fourier(frame.content.x[..], fs)
        && sy == dsp.fourier(frame.content.y[..], fs)
        && sz == dsp.fourier(frame.content.z[..], fs)
    {
      var fs := RoundToInt(GetFrameFrequency());
      sx := dsp.fourier(frame.content.x[..], fs);
      sy := dsp.fourier(frame.content.y[..], fs);
      sz := dsp.fourier(frame.content.z[..], fs);
    }

    /**
     * Installs a new content with the same width and the same time array and the given
     * axes, as the three filters do.
     */
    method Replace(nx: seq<real>, ny: seq<real>, nz: seq<real>)
      modifies frame`content
      ensures fresh(frame.content) && fresh(frame.content.x) && fresh(frame.content.y) && fresh(frame.content.z)
      ensures frame.content.t == old(frame.content.t) && frame.content.frameWidth == old(frame.content.frameWidth)
      ensures frame.content.x[..] == nx && frame.content.y[..] == ny && frame.content.z[..] == nz
    {
      var ax := new real[|nx|](i requires 0 <= i < |nx| => nx[i]);
      var ay := new real[|ny|](i requires 0 <= i < |ny| => ny[i]);
      var az := new real[|nz|](i requires 0 <= i < |nz| => nz[i]);
      frame.content := new SensorFrameContent(frame.content.frameWidth, frame.content.t, ax, ay, az);
    }

    /**
     * `lowPassFilter(freqCap, order)`: each axis through the same Butterworth low-pass at the
     * frame's sampling rate; the time array and the width are kept.
     */
    method LowPassFilter(freqCap: real, order: int)
      requires RateDefined()
      modifies frame`content
      ensures fresh(frame.content)
      ensures frame.content.t == old(frame.content.t) && frame.content.frameWidth == old(frame.content.frameWidth)
      ensures var fs := old(GetFrameFrequency());
        && frame.content.x[..] == dsp.lowPass(old(frame.content.x[..]), fs, order, freqCap)
        && frame.content.y[..] == dsp.lowPass(old(frame.content.y[..]), fs, order, freqCap)
        && frame.content.z[..] == dsp.lowPass(old(frame.content.z[..]), fs, order, freqCap)
    {
      var fs := GetFrameFrequency();
      var c := frame.content;
      Replace(dsp.lowPass(c.x[..], fs, order, freqCap), dsp.lowPass(c.y[..], fs, order, freqCap),
              dsp.lowPass(c.z[..], fs, order, freqCap));
    }

    /** `highPassFilter(freqMin, order)`: as `LowPassFilter` with the high-pass filter. */
    method HighPassFilter(freqMin: real, order: int)
      requires RateDefined()
      modifies frame`content
      ensures fresh(frame.content)
      ensures frame.content.t == old(frame.content.t) && frame.content.frameWidth == old(frame.content.frameWidth)
      ensures var fs := old(GetFrameFrequency());
        && frame.content.x[..] == dsp.highPass(old(frame.content.x[..]), fs, order, freqMin)
        && frame.content.y[..] == dsp.highPass(old(frame.content.y[..]), fs, order, freqMin)
        && frame.content.z[..] == dsp.highPass(old(frame.content.z[..]), fs, order, freqMin)
    {
      var fs := GetFrameFrequency();
      var c := frame.content;
      Replace(dsp.highPass(c.x[..], fs, order, freqMin), dsp.highPass(c.y[..], fs, order, freqMin),
              dsp.highPass(c.z[..], fs, order, freqMin));
    }

    /** `bandPassFilter(freqMin, freqCap, order)`: as `LowPassFilter` with the band-pass filter. */
    method BandPassFilter(freqMin: real, freqCap: real, order: int)
      requires RateDefined()
      modifies frame`content
      ensures fresh(frame.content)
      ensures frame.content.t == old(frame.content.t) && frame.content.frameWidth == old(frame.content.frameWidth)
      ensures var fs := old(GetFrameFrequency());
        && frame.content.x[..] == dsp.bandPass(old(frame.content.x[..]), fs, order, freqMin, freqCap)
        && frame.content.y[..] == dsp.bandPass(old(frame.content.y[..]), fs, order, freqMin, freqCap)
        && frame.content.z[..] == dsp.bandPass(old(frame.content.z[..]), fs, order, freqMin, freqCap)
    {
      var fs := GetFrameFrequency();
      var c := frame.content;
      Replace(dsp.bandPass(c.x[..], fs, order, freqMin, freqCap), dsp.bandPass(c.y[..], fs, order, freqMin, freqCap),
              dsp.bandPass(c.z[..], fs, order, freqMin, freqCap));
    }

    /**
     * `smoothByMovingAverage(windowSize, mode)`: each axis smoothed with the same window and
     * mode; the new width is the length `n` of the smoothed `x`, and the timestamps are cut
     * down to the `n` kept by `TrimmedTimes`, in a fresh array.
     */
    method SmoothByMovingAverage(windowSize: int, mode: string)
      requires frame.content.frameWidth >= 0
      requires |dsp.smooth(frame.content.x[..], windowSize, mode)| <= INT_MAX
      modifies frame`content
      ensures fresh(frame.content) && fresh(frame.content.t)
      ensures var nx := dsp.smooth(old(frame.content.x[..]), windowSize, mode);
        && frame.content.frameWidth == |nx|
        && frame.content.x[..] == nx
        && frame.content.y[..] == dsp.smooth(old(frame.content.y[..]), windowSize, mode)
        && frame.content.z[..] == dsp.smooth(old(frame.content.z[..]), windowSize, mode)
        && frame.content.t[..] == TrimmedTimes(old(frame.content.t[..]), old(frame.content.frameWidth), |nx|)
    {
      var c := frame.content;
      var nx := dsp.smooth(c.x[..], windowSize, mode);
      var ny := dsp.smooth(c.y[..], windowSize, mode);
      var nz := dsp.smooth(c.z[..], windowSize, mode);
      var n := |nx|;
      var nt := TrimmedTimes(c.t[..], c.frameWidth, n);
      var at := new real[|nt|](i requires 0 <= i < |nt| => nt[i]);
      var ax := new real[n](i requires 0 <= i < n => nx[i]);
      var ay := new real[|ny|](i requires 0 <= i < |ny| => ny[i]);
      var az := new real[|nz|](i requires 0 <= i < |nz| => nz[i]);
      assert at[..] == nt && ax[..] == nx && ay[..] == ny && az[..] == nz;
      frame.content := new SensorFrameContent(n, at, ax, ay, az);
    }
  }

  /**
   * Smoothing a full-width frame whose smoothed signal is no longer than the frame leaves
   * `n` timestamps and `n` samples on the x axis: the content's width agrees with its arrays.
   */
  method SmoothKeepsShape(p: SensorFramePreprocessor, windowSize: int, mode: string)
    requires p.frame.content.frameWidth == p.frame.content.t.Length
    requires |p.dsp.smooth(p.frame.content.x[..], windowSize, mode)| <= p.frame.content.frameWidth
    modifies p.frame`content
    ensures p.frame.content.t.Length == p.frame.content.frameWidth == p.frame.content.x.Length
    ensures p.frame.content.frameWidth <= old(p.frame.content.frameWidth)
    ensures var w := old(p.frame.content.frameWidth);
      var n := p.frame.content.frameWidth;
      p.frame.content.t[..] == old(p.frame.content.t[..])[(w - n) / 2..(w - n) / 2 + n]
  {
    ghost var t0 := p.frame.content.t[..];
    p.SmoothByMovingAverage(windowSize, mode);
    CenteredTrim(t0, |t0|, p.frame.content.frameWidth);
  }
}

=== FILE: sensor_frames.dfy ===
/**
 * The frame buffer of the sensor pipeline: `SensorFrameContent`, `SensorFrame` and the
 * resampler `syncFrames` (app/src/main/java/com/landenlloyd/gesturements/DataExtraction.kt).
 *
 * A frame owns four parallel backing arrays `t`, `x`, `y`, `z` of its width and a logical
 * size. Appending writes in place; clearing installs a fresh content object that carries
 * the last `round(width * overlap)` backing entries over and pads with zeros.
 */
module SensorFrames {
  import opened Numerics

  /** One timestamped 3-axis reading as the frame stores it (the timestamp already a `Double`). */
  datatype Reading = Reading(t: real, x: real, y: real, z: real)

  /** The value of a `SensorFrameContent`: what its `equals` compares. */
  datatype Content = Content(frameWidth: int, t: seq<real>, x: seq<real>, y: seq<real>, z: seq<real>)

  /** The value of a `SensorFrame`: its content and its logical size. */
  datatype Buffer = Buffer(content: Content, size: int)

  /** `clear` rejects an overlap outside [0, 1] with this exception. */
  datatype OverlapValueException = OverlapValueException(overlap: real)

  datatype Outcome = Pass | Fail(error: OverlapValueException)

  /**
   * The interpolator built from nodes `ts` and values `vs` and evaluated at a time:
   * Apache Commons' `SplineInterpolator().interpolate(ts, vs).value(t)`.
   */
  type Interpolator = (seq<real>, seq<real>, real) -> real

  /** The only property of the cubic spline the model relies on: it passes through its nodes. */
  ghost predicate ExactAtNodes(interp: Interpolator, ts: seq<real>, vs: seq<real>)
    requires |vs| == |ts|
  {
    forall i :: 0 <= i < |ts| ==> interp(ts, vs, ts[i]) == vs[i]
  }

  ghost predicate StrictlyIncreasing(s: seq<real>)
  {
    forall i, j :: 0 <= i < j < |s| ==> s[i] < s[j]
  }

  predicate ValidOverlap(overlap: real)
  {
    0.0 <= overlap <= 1.0
  }

  /** The reading stored at backing index `i`. */
  function At(c: Content, i: int): Reading
    requires 0 <= i < |c.t| && i < |c.x| && i < |c.y| && i < |c.z|
  {
    Reading(c.t[i], c.x[i], c.y[i], c.z[i])
  }

  /** A buffer as a live frame of width `w` keeps it: four arrays of length `w`, size at most `w`. */
  predicate WellFormed(b: Buffer, w: int)
  {
    && b.content.frameWidth == w
    && |b.content.t| == w && |b.content.x| == w && |b.content.y| == w && |b.content.z| == w
    && 0 <= b.size <= w
  }

  /** The readings a buffer logically holds, in arrival order. */
  function Readings(b: Buffer): (rs: seq<Reading>)
    requires WellFormed(b, b.content.frameWidth)
    ensures |rs| == b.size
  {
    seq(b.size, i requires 0 <= i < b.size => At(b.content, i))
  }

  /** `updateReadings` on a buffer value: the new buffer and whether the frame is full. */
  function Append(b: Buffer, w: int, r: Reading): (res: (Buffer, bool))
    requires WellFormed(b, w)
    ensures WellFormed(res.0, w)
    ensures b.size == w ==> res == (b, true)
    ensures b.size < w ==> res.0.size == b.size + 1 && Readings(res.0) == Readings(b) + [r]
    ensures b.size < w ==> forall i :: b.size < i < w ==> At(res.0.content, i) == At(b.content, i)
    ensures res.1 <==> res.0.size == w
  {
    if b.size == w then (b, true)
    else
      var c := b.content;
      var nb := Buffer(Content(w, c.t[b.size := r.t], c.x[b.size := r.x], c.y[b.size := r.y], c.z[b.size := r.z]),
                       b.size + 1);
      assert Readings(nb) == Readings(b) + [r];
      (nb, nb.size == w)
  }

  /** The number of entries `clear(overlap)` keeps: `(frameWidth * overlap).roundToInt()`. */
  function OverlapCount(w: Width, overlap: real): (k: nat)
    requires ValidOverlap(overlap)
    ensures k <= w
    ensures w as real * overlap - 0.5 < k as real <= w as real * overlap + 0.5
  {
    var v := w as real * overlap;
    assert 0.0 <= v <= w as real;
    assert (v + 0.5).Floor as real <= v + 0.5;
    RoundToInt(v)
  }

  /** `takeLast(k).toDoubleArray().copyOf(|s|)`: the last `k` entries first, then zeros. */
  function CarryOver(s: seq<real>, k: nat): (r: seq<real>)
    requires k <= |s|
    ensures |r| == |s|
    ensures forall i :: 0 <= i < k ==> r[i] == s[|s| - k + i]
    ensures forall i :: k <= i < |s| ==> r[i] == 0.0
  {
    s[|s| - k..] + Zeros(|s| - k)
  }

  /** `clear` on a buffer value, with `k` the overlap count. */
  function Cleared(b: Buffer, w: int, k: nat): (r: Buffer)
    requires WellFormed(b, w) && k <= w
    ensures WellFormed(r, w) && r.size == k
    ensures Readings(r) == seq(k, i requires 0 <= i < k => At(b.content, w - k + i))
    ensures forall i :: k <= i < w ==> At(r.content, i) == Reading(0.0, 0.0, 0.0, 0.0)
  {
    var c := b.content;
    var r := Buffer(Content(w, CarryOver(c.t, k), CarryOver(c.x, k), CarryOver(c.y, k), CarryOver(c.z, k)), k);
    assert Readings(r) == seq(k, i requires 0 <= i < k => At(b.content, w - k + i)) by {
      forall i | 0 <= i < k
        ensures Readings(r)[i] == At(b.content, w - k + i)
      {
      }
    }
    r
  }

  /** On a full frame, `clear` keeps exactly the last `k` readings, in their original order. */
  lemma ClearKeepsMostRecent(b: Buffer, w: int, k: nat)
    requires WellFormed(b, w) && k <= w && b.size == w
    ensures Readings(Cleared(b, w, k)) == Readings(b)[w - k..]
  {
  }

  /**
   * `getAverages` divides by the width, not by the logical size: on a buffer whose entries
   * past its size are zero (as `clear` leaves them), the average is the sum of the held
   * readings over the whole width.
   */
  lemma {:induction false} AverageOverWidth(b: Buffer, w: int)
    requires WellFormed(b, w) && w > 0
    requires forall i :: b.size <= i < w ==> b.content.x[i] == 0.0
    ensures Mean(b.content.x) == Some(Sum(b.content.x[..b.size]) / w as real)
  {
    SumZeroTail(b.content.x, b.size);
  }

  /** Resampling of one axis, as each of the three array initialisers in `syncFrames` does it. */
  function Resample(t1: seq<real>, t2: seq<real>, v2: seq<real>, interp: Interpolator): (r: seq<real>)
    requires |t2| >= 1 && |v2| == |t2|
    ensures |r| == |t1|
    ensures forall i :: 0 <= i < |t1| && t1[i] < t2[0] ==> r[i] == v2[0]
    ensures forall i :: 0 <= i < |t1| && t2[0] <= t1[i] && t1[i] > t2[|t2| - 1] ==> r[i] == v2[|v2| - 1]
    ensures forall i :: 0 <= i < |t1| && t2[0] <= t1[i] <= t2[|t2| - 1] ==> r[i] == interp(t2, v2, t1[i])
  {
    seq(|t1|, i requires 0 <= i < |t1| =>
      if t1[i] < t2[0] then v2[0]
      else if t1[i] > t2[|t2| - 1] then v2[|v2| - 1]
      else interp(t2, v2, t1[i]))
  }

  /** `syncFrames(t1, t2, x2, y2, z2)`: the three axes of the source resampled at the times `t1`. */
  function SyncFrames(t1: seq<real>, t2: seq<real>, x2: seq<real>, y2: seq<real>, z2: seq<real>,
                      interp: Interpolator): (r: (seq<real>, seq<real>, seq<real>))
    requires |t2| >= 1 && |x2| == |t2| && |y2| == |t2| && |z2| == |t2|
    ensures |r.0| == |t1| && |r.1| == |t1| && |r.2| == |t1|
  {
    (Resample(t1, t2, x2, interp), Resample(t1, t2, y2, interp), Resample(t1, t2, z2, interp))
  }

  /**
   * Resampling onto the source's own increasing time grid reproduces the source, given
   * a spline that is exact at its nodes.
   */
  lemma ResampleAtNodes(t2: seq<real>, v2: seq<real>, interp: Interpolator)
    requires |t2| >= 1 && |v2| == |t2|
    requires StrictlyIncreasing(t2) && ExactAtNodes(interp, t2, v2)
    ensures Resample(t2, t2, v2, interp) == v2
  {
    var r := Resample(t2, t2, v2, interp);
    forall i | 0 <= i < |t2|
      ensures r[i] == v2[i]
    {
      assert i == 0 || t2[0] < t2[i];
      assert i == |t2| - 1 || t2[i] < t2[|t2| - 1];
    }
  }

  /** `syncFrames(t2, t2, x, y, z)` returns `x`, `y` and `z` unchanged. */
  lemma SyncFramesIdentity(t2: seq<real>, x2: seq<real>, y2: seq<real>, z2: seq<real>, interp: Interpolator)
    requires |t2| >= 1 && |x2| == |t2| && |y2| == |t2| && |z2| == |t2| && StrictlyIncreasing(t2)
    requires ExactAtNodes(interp, t2, x2) && ExactAtNodes(interp, t2, y2) && ExactAtNodes(interp, t2, z2)
    ensures SyncFrames(t2, t2, x2, y2, z2, interp) == (x2, y2, z2)
  {
    ResampleAtNodes(t2, x2, interp);
    ResampleAtNodes(t2, y2, interp);
    ResampleAtNodes(t2, z2, interp);
  }

  /**
   * Target times outside the source's range take the first or last source value, whatever
   * the interpolator: source t = [1, 2, 3], targets [-0.5, 4.5, 10].
   */
  lemma SyncFramesClampsOutsideRange(interp: Interpolator)
    ensures SyncFrames([-0.5, 4.5, 10.0], [1.0, 2.0, 3.0], [1.0, 2.0, 3.0], [3.0, 2.0, 1.0], [2.0, 2.0, 2.0], interp)
         == ([1.0, 3.0, 3.0], [3.0, 1.0, 1.0], [2.0, 2.0, 2.0])
  {
    var t1, t2 := [-0.5, 4.5, 10.0], [1.0, 2.0, 3.0];
    var r := Resample(t1, t2, [1.0, 2.0, 3.0], interp);
    assert r[0] == 1.0 && r[1] == 3.0 && r[2] == 3.0;
    assert r == [1.0, 3.0, 3.0];
    r := Resample(t1, t2, [3.0, 2.0, 1.0], interp);
    assert r[0] == 3.0 && r[1] == 1.0 && r[2] == 1.0;
    assert r == [3.0, 1.0, 1.0];
    r := Resample(t1, t2, [2.0, 2.0, 2.0], interp);
    assert r[0] == 2.0 && r[1] == 2.0 && r[2] == 2.0;
    assert r == [2.0, 2.0, 2.0];
  }

  /**
   * The backing arrays of one frame: a `data class` whose arrays are shared by reference
   * when a frame is copied, and written in place by `updateReadings`.
   */
  class SensorFrameContent {
    const frameWidth: Int32
    const t: array<real>
    const x: array<real>
    const y: array<real>
    const z: array<real>

    /** `SensorFrameContent(frameWidth)`: four zero-filled arrays of the width. */
    constructor Zeros(w: Width)
      ensures frameWidth == w
      ensures fresh(t) && fresh(x) && fresh(y) && fresh(z)
      ensures t != x && t != y && t != z && x != y && x != z && y != z
      ensures Value() == Content(w, Numerics.Zeros(w), Numerics.Zeros(w), Numerics.Zeros(w), Numerics.Zeros(w))
    {
      frameWidth := w;
      t := new real[w](_ => 0.0);
      x := new real[w](_ => 0.0);
      y := new real[w](_ => 0.0);
      z := new real[w](_ => 0.0);
    }

    /** `SensorFrameContent(frameWidth, t, x, y, z)`: wraps the given arrays, without copying. */
    constructor (w: Int32, t: array<real>, x: array<real>, y: array<real>, z: array<real>)
      ensures frameWidth == w && this.t == t && this.x == x && this.y == y && this.z == z
    {
      frameWidth := w;
      this.t, this.x, this.y, this.z := t, x, y, z;
    }

    function Value(): Content
      reads t, x, y, z
    {
      Content(frameWidth, t[..], x[..], y[..], z[..])
    }
  }

  /** A fixed-width frame: a content object and the number of readings appended so far. */
  class SensorFrame {
    const frameWidth: Width
    var content: SensorFrameContent
    var frameSize: int

    /** The live frame's invariant: four distinct arrays of the width, size within the width. */
    ghost predicate Valid()
      reads this, content
    {
      && content.frameWidth == frameWidth
      && content.t.Length == frameWidth && content.x.Length == frameWidth
      && content.y.Length == frameWidth && content.z.Length == frameWidth
      && content.t != content.x && content.t != content.y && content.t != content.z
      && content.x != content.y && content.x != content.z && content.y != content.z
      && 0 <= frameSize <= frameWidth
    }

    function State(): Buffer
      reads this, content, content.t, content.x, content.y, content.z
    {
      Buffer(content.Value(), frameSize)
    }

    constructor (w: Width)
      ensures Valid() && frameWidth == w && fresh(content)
      ensures fresh(content.t) && fresh(content.x) && fresh(content.y) && fresh(content.z)
      ensures State() == Buffer(Content(w, Zeros(w), Zeros(w), Zeros(w), Zeros(w)), 0)
    {
      frameWidth := w;
      content := new SensorFrameContent.Zeros(w);
      frameSize := 0;
    }

    /** `SensorFrame.from`: a new frame that shares (does not copy) the content object. */
    static method From(f: SensorFrame) returns (r: SensorFrame)
      ensures fresh(r)
      ensures r.frameWidth == f.frameWidth && r.content == f.content && r.frameSize == f.frameSize
    {
      r := new SensorFrame(f.frameWidth);
      r.content := f.content;
      r.frameSize := f.frameSize;
    }

    /**
     * `updateReadings`: writes the reading at index `frameSize` and reports whether the
     * frame is now full; a full frame is left as it is and reports full again.
     */
    method UpdateReadings(t: real, x: real, y: real, z: real) returns (full: bool)
      requires Valid()
      modifies this`frameSize, content.t, content.x, content.y, content.z
      ensures Valid() && content == old(content)
      ensures (State(), full) == Append(old(State()), frameWidth, Reading(t, x, y, z))
    {
      if frameSize == frameWidth {
        return true;
      }
      content.t[frameSize] := t;
      content.x[frameSize] := x;
      content.y[frameSize] := y;
      content.z[frameSize] := z;
      frameSize := frameSize + 1;
      full := frameSize == frameWidth;
    }

    /**
     * `clear(overlap)`: fails on an overlap outside [0, 1]; otherwise installs a fresh
     * content holding the last `round(width * overlap)` entries followed by zeros.
     * The arrays of the old content are not touched.
     */
    method Clear(overlap: real) returns (r: Outcome)
      requires Valid()
      modifies this
      ensures Valid()
      ensures r == (if ValidOverlap(overlap) then Pass else Fail(OverlapValueException(overlap)))
      ensures r.Fail? ==> content == old(content) && frameSize == old(frameSize)
      ensures r.Pass? ==> fresh(content) && fresh(content.t) && fresh(content.x) && fresh(content.y) && fresh(content.z)
      ensures r.Pass? ==> State() == Cleared(old(State()), frameWidth, OverlapCount(frameWidth, overlap))
    {
      if !ValidOverlap(overlap) {
        return Fail(OverlapValueException(overlap));
      }
      var k := OverlapCount(frameWidth, overlap);
      var w := frameWidth;
      var ct, cx := CarryOver(content.t[..], k), CarryOver(content.x[..], k);
      var cy, cz := CarryOver(content.y[..], k), CarryOver(content.z[..], k);
      ghost var target := Cleared(State(), w, k);
      assert target.content == Content(w, ct, cx, cy, cz);
      var nt := new real[w](i requires 0 <= i < w => ct[i]);
      var nx := new real[w](i requires 0 <= i < w => cx[i]);
      var ny := new real[w](i requires 0 <= i < w => cy[i]);
      var nz := new real[w](i requires 0 <= i < w => cz[i]);
      assert nt[..] == ct && nx[..] == cx && ny[..] == cy && nz[..] == cz;
      content := new SensorFrameContent(w, nt, nx, ny, nz);
      frameSize := k;
      r := Pass;
    }

    /** `getAverages`: the mean of each axis over all `frameWidth` backing entries. */
    function GetAverages(): (r: (Option<real>, Option<real>, Option<real>))
      requires Valid()
      reads this, content, content.x, content.y, content.z
      ensures r.0.Some? <==> frameWidth > 0
      ensures r.1.Some? <==> frameWidth > 0
      ensures r.2.Some? <==> frameWidth > 0
      ensures r.0.Some? ==> r.0.value * frameWidth as real == Sum(content.x[..])
      ensures r.1.Some? ==> r.1.value * frameWidth as real == Sum(content.y[..])
      ensures r.2.Some? ==> r.2.value * frameWidth as real == Sum(content.z[..])
    {
      (Mean(content.x[..]), Mean(content.y[..]), Mean(content.z[..]))
    }

    /**
     * `syncToTime(t)`: installs a content with the given time array itself and the three
     * axes resampled onto it; the width recorded is this frame's own.
     */
    method SyncToTime(t: array<real>, interp: Interpolator)
      requires content.t.Length >= 1
      requires content.x.Length == content.t.Length && content.y.Length == content.t.Length
      requires content.z.Length == content.t.Length
      modifies this`content
      ensures fresh(content) && content.t == t
      ensures content.Value() == Content(frameWidth, t[..],
                Resample(t[..], old(content.t[..]), old(content.x[..]), interp),
                Resample(t[..], old(content.t[..]), old(content.y[..]), interp),
                Resample(t[..], old(content.t[..]), old(content.z[..]), interp))
    {
      var synced := SyncFrames(t[..], content.t[..], content.x[..], content.y[..], content.z[..], interp);
      var n := t.Length;
      var nx := new real[n](i requires 0 <= i < n => synced.0[i]);
      var ny := new real[n](i requires 0 <= i < n => synced.1[i]);
      var nz := new real[n](i requires 0 <= i < n => synced.2[i]);
      content := new SensorFrameContent(frameWidth, t, nx, ny, nz);
    }
  }

  /**
   * A copy made with `From` keeps its readings when the original is cleared, because
   * `clear` installs a new content object instead of overwriting the shared arrays.
   */
  method CopySurvivesClear(f: SensorFrame, overlap: real) returns (copy: SensorFrame)
    requires f.Valid() && ValidOverlap(overlap)
    modifies f
    ensures copy.State() == old(f.State())
    ensures f.State() == Cleared(old(f.State()), f.frameWidth, OverlapCount(f.frameWidth, overlap))
  {
    copy := SensorFrame.From(f);
    var r := f.Clear(overlap);
  }
}
